=== FILE: README.md ===
# SimpleCopier's copy library, modelled in Dafny

SimpleCopier copies a directory tree in parallel. Its library, `CopyLib` (`SourceCode/copylib.cpp`),
offers these operations:

- **Check space.** `isEnoughSpace` compares a volume's available space with the bytes needed.
- **Plan.** `createCopyQueues` checks the request. It then writes one text artifact per worker into
  the temporary directory. The artifacts are named `copy_plan_<i>.txt`. Each one holds two header
  lines, the origin and the destination, followed by the paths of the origin's regular files
  relative to the origin. The files are dealt round-robin in walk order. The planner also totals
  the files' sizes (`scopeSize`) and counts them (`fileNum`). A successful plan lowers the
  library's sticky error flag.
- **Replicate.** `copyDirStructure` reads the header of queue 0 and recreates the origin's
  directory tree under the destination, directories only.
- **Copy.** One `worker` runs per queue. It reads its header and then copies each listed regular
  file with overwrite. For each file it adds 1 to the caller's file counter and the file's size to
  the byte counter, whether or not the copy succeeds. It raises the error flag when a copy reports
  an error. It stops between files once it sees the cancel flag.
- **Clean up.** `removeCopyQueues` deletes the queue artifacts.

The orchestrator (`SourceCode/mainwindow.cpp:166-176`) first calls `isEnoughSpace` on the
destination, with the `scopeSize` left over from the previous plan (zero before the first one).
If that succeeds, it plans. After a successful plan it replicates the directories, starts one
worker thread per queue and waits until the workers' file counter reaches `fileNum`. Then it
removes the queues and finally reads the error flag.

The model works over an abstract world (`FileSystem.World`), which has these parts:

- the disk, a map from path strings to `File(size)`, `Dir` or `Other`;
- the queue artifacts, as text keyed by full path;
- the sticky error flag;
- the two shared counters.

Whatever the real program learns from the operating system is given to the model as a parameter:

- the recursive directory walk is a sequence of entries;
- which copies report an error is a set of source paths;
- which artifacts cannot be opened is a set of paths;
- the free space per path is a map;
- the point where each worker sees cancellation is an entry count.

The artifacts are modelled as text. The planner writes each line followed by a newline. The worker
reads them back line by line (`TextLines`). So the model proves that what a worker reads is what the
planner wrote, rather than assuming it.

Modules, one per file:

- `Optional`: the option type.
- `Decimal`: the decimal printing of queue indices, and its inverse.
- `TextLines`: line-wise writing and reading.
- `FileSystem`: the world, walks and relative paths.
- `QueueFiles`: artifact names, storing artifacts and removing them.
- `RoundRobin`: dealing a sequence into n columns.
- `Planner`: `createCopyQueues`.
- `Worker`: `worker`.
- `Structure`: `copyDirStructure`.
- `Space`: `isEnoughSpace`.
- `CopyLib`: the entry points as the orchestrator drives them, and the end-to-end properties.

The workers run concurrently in the program but one after another in `CopyLib.RunWorkers`. Two
lemmas connect this to any interleaving:

- `Worker.WorkerAdditive`: a worker only adds to the counters and only ORs into the flag, so its
  effect on them does not depend on the values they hold when it starts.
- `CopyLib.AnyOrderTotals`, `CopyLib.AnyOrderFlag` and `CopyLib.RunAnyOrder`: when no copy target
  is one of the sources being copied, running the copy step over every queued line once, in any
  order, ends with the same counters and the same flag. An interleaving of the workers, one file
  at a time, is such an order.

Without that condition the order matters: a copy can overwrite a source that another worker has
not copied yet.

## Model

| member | source | states |
|---|---|---|
| Decimal.NatToString | SourceCode/copylib.cpp:58 | the decimal text `std::to_string` gives a queue index; what it produces is stated by Decimal.PrintFacts |
| Decimal.PrintFacts | SourceCode/copylib.cpp:58 | the printed text of an index is canonical (digits, no superfluous leading zero) and denotes the index |
| Decimal.ParsePrint | SourceCode/copylib.cpp:58 | the decimal text of a queue index parses back to that index |
| Decimal.PrintParse | SourceCode/copylib.cpp:58 | every canonical digit string is the printed form of the number it denotes |
| Decimal.PrintInjective | SourceCode/copylib.cpp:58 | distinct indices print as distinct decimal text |
| TextLines.Text | SourceCode/copylib.cpp:72-73 | the text an artifact holds after each line was written followed by `std::endl`; its read-back is stated by TextLines.ReadWritten |
| TextLines.Lines | SourceCode/copylib.cpp:112-125 | the lines successive `std::getline` calls return; none of them holds a newline |
| TextLines.ReadWritten | SourceCode/copylib.cpp:108-125 | reading lines back from an artifact gives exactly the lines written to it, each followed by a newline, provided no line holds a newline |
| TextLines.NewlineSplitsLine | SourceCode/copylib.cpp:83-86 | a written line a + newline + b, with a and b newline-free, comes back as the two lines a and b: a path holding a newline breaks the round trip |
| FileSystem.Rel | SourceCode/copylib.cpp:83-84 | the relative path is what is left of the full path after the origin's length, and origin followed by it is the full path when the origin is a prefix |
| QueueFiles.GetTempFN | SourceCode/copylib.cpp:196-199 | the file-name prefix of every queue artifact, "copy_plan_" |
| QueueFiles.GetTempExten | SourceCode/copylib.cpp:203-206 | the extension of every queue artifact, ".txt" |
| QueueFiles.QueueName | SourceCode/copylib.cpp:58 | the artifact path of queue i; its shape and its read-back are stated by QueueFiles.NameShape and QueueFiles.NameParses |
| QueueFiles.NameShape | SourceCode/copylib.cpp:58 | a queue name is the temporary directory, then "copy_plan_", then a canonical decimal index, then ".txt" |
| QueueFiles.NameParses | SourceCode/copylib.cpp:58 | the index can be read back from the name of queue i |
| QueueFiles.ParsedIsName | SourceCode/copylib.cpp:178 | any path read as queue i is exactly the name of queue i |
| QueueFiles.NamesDistinct | SourceCode/copylib.cpp:178 | distinct indices name distinct artifacts |
| QueueFiles.RemoveCopyQueues | SourceCode/copylib.cpp:173-184 | afterwards an artifact remains exactly when it was there before and is not one of queues 0..n-1, and the remaining artifacts keep their text; missing queues are tolerated |
| QueueFiles.Store | SourceCode/copylib.cpp:56-68 | queue i gets text i, every other artifact is kept, and nothing else is created |
| Planner.Files | SourceCode/copylib.cpp:78-80 | the kept entries are walked regular files |
| Planner.RelFiles | SourceCode/copylib.cpp:80-84 | one nonempty relative path per walked regular file, and origin followed by it is that file's path |
| Planner.ScanWalk | SourceCode/copylib.cpp:76-89 | the walk loop makes n queues, counts the walk's regular files and totals their sizes |
| Planner.FirstUnwritable | SourceCode/copylib.cpp:56-68 | the first queue index whose artifact cannot be opened, with all earlier ones openable, or n when all can be opened |
| Planner.CreateCopyQueues | SourceCode/copylib.cpp:34-99 | a zero worker count, an empty or missing origin or destination, or equal paths are refused with no effect at all (both directions); otherwise only the queue artifacts and the flag change; an open failure leaves the earlier queues created and empty and keeps the flag; a plan is made only when every queue could be opened, writes the two header lines into every queue, counts the regular files, totals their sizes and lowers the flag |
| Planner.HeaderText | SourceCode/copylib.cpp:70-74 | the written text starts with the origin line and then the destination line |
| Planner.ScanTally | SourceCode/copylib.cpp:78-89 | the queues together hold the relative paths of the walk's regular files with the same multiplicity, so each file is in exactly one queue; they hold as many lines as there are files and the same source bytes |
| Planner.ScanColumns | SourceCode/copylib.cpp:85-86 | queue i holds, in walk order, the relative paths of the files whose position is congruent to i modulo n |
| Planner.ScanDealt | SourceCode/copylib.cpp:85-87 | the k-th regular file goes to queue k mod n, as line k / n there |
| Planner.ScanBalanced | SourceCode/copylib.cpp:85-87 | queue i has fileNum / n lines, plus one when i < fileNum mod n, so queue lengths differ by at most one |
| Planner.PlannedTexts | SourceCode/copylib.cpp:70-89 | after a plan, queue i's text is the two header lines followed by the walk loop's i-th queue |
| Planner.PlanRoundRobin | SourceCode/copylib.cpp:70-89 | when origin, destination and walked paths hold no newline: after a plan, reading queue i back gives origin, destination, then the relative paths of every n-th regular file starting with the i-th |
| Planner.FilesComplete | SourceCode/copylib.cpp:78-80 | no walked regular file is missed |
| Planner.SourceBytesPermutation | SourceCode/copylib.cpp:137 | the sizes added for a set of lines do not depend on the order the lines are copied in |
| Planner.SourceBytesOfWalk | SourceCode/copylib.cpp:82 | on a disk that still holds the walked files with their sizes, the sources of the plan's lines add up to the walk's total |
| RoundRobin.ColumnShape | SourceCode/copylib.cpp:85 | column i holds one item per dealing round that reached it, and its q-th item is item q*n+i |
| RoundRobin.Balanced | SourceCode/copylib.cpp:85 | column lengths differ by at most one |
| Worker.CopyLine | SourceCode/copylib.cpp:126-139 | an empty line or a missing or non-regular source changes nothing; a regular source counts once and adds its size even when its copy fails; the flag is raised exactly when the copy fails and is never lowered; a successful copy puts a file of the source's size at the target unless the target is a directory, which stays one; nothing but the target changes, and no directory is created or replaced |
| Worker.CopyLines | SourceCode/copylib.cpp:123-141 | the loop never lowers the flag, raises it only when some line's source fails, counts each line at most once, and neither creates nor replaces a directory |
| Worker.CopyLinesFrame | SourceCode/copylib.cpp:131 | the loop changes no disk path other than the targets of its lines |
| Worker.Observed | SourceCode/copylib.cpp:123-125 | a worker reads a prefix of its entries: all of them without cancellation, and the first k when it sees cancellation before entry k + 1 |
| Worker.Worker | SourceCode/copylib.cpp:103-145 | an empty or absent queue, or an empty header line, changes nothing; the flag is never lowered; the counters never drop, no directory is created or replaced, and the file count grows by at most the queue's entries and at most by the cancellation point; the exact counts under cancellation are CopyLib.RunCancelled |
| Worker.WorkerAdditive | SourceCode/copylib.cpp:134-138 | a worker's effect on the counters is an addition and on the flag an OR, whatever values they hold when it starts |
| Worker.CancelStopsReading | SourceCode/copylib.cpp:123-125 | a worker that sees cancellation before entry k + 1 reads nothing past its first k entries: changing the rest of the artifact changes nothing |
| Worker.CopyLinesTotals | SourceCode/copylib.cpp:128-138 | when every line names a regular source that no copy overwrites, the loop counts every line exactly once and adds exactly the sources' sizes |
| Worker.CopyLinesFlag | SourceCode/copylib.cpp:131-135 | under the same conditions the flag ends raised exactly when it was raised already or some line's source fails |
| Worker.CopyLinesLand | SourceCode/copylib.cpp:129-131 | under the same conditions every line whose source copies without error ends with a file of the source's size at its target, unless that target was a directory |
| Structure.CopyTree | SourceCode/copylib.cpp:155-166 | the directories-only recursive copy fails exactly when some walked entry or its target is neither file nor directory, or a directory meets a file; otherwise it keeps everything, adds only directories, gives each walked directory a counterpart and adds nothing else |
| Structure.CopyDirs | SourceCode/copylib.cpp:166 | the copy fails exactly in the cases of Structure.CopyFails: a missing origin, equal paths, something neither file nor directory at either end, or, for a directory origin, an empty destination, a file at the destination, a destination inside the walked tree, or a blocked walked entry; a regular-file origin leaves the disk as it is; a directory origin gets its destination and all walked directories' counterparts, and only those are added |
| Structure.CopyDirStructure | SourceCode/copylib.cpp:149-169 | without queue 0 nothing happens; with it the copy of the header's origin onto its destination always runs and throws exactly in the cases of Structure.CopyFails; on success the disk only gains directories, and when the header's origin is a directory the destination and every walked directory's counterpart are directories afterwards |
| Space.IsEnoughSpace | SourceCode/copylib.cpp:188-192 | true exactly when the destination's volume has at least the needed bytes available, and an error exactly when its space cannot be queried |
| CopyLib.RemoveQueues | SourceCode/copylib.cpp:173-184 | only the queue artifacts change: none of queues 0..n-1 remains, every other artifact is untouched and none is created |
| CopyLib.RunWorkers | SourceCode/mainwindow.cpp:93-100 | running the workers one after another keeps the artifacts, never lowers the flag, never lowers the file count, and neither creates nor replaces a directory |
| CopyLib.RunIsCutLoops | SourceCode/copylib.cpp:123-125 | with any cancellation, the first m workers run the copy loop over exactly the part of each of the first m queues read before the cancel flag was seen |
| CopyLib.RunIsLoops | SourceCode/mainwindow.cpp:93-100 | without cancellation, the first m workers run the copy loop over exactly the lines of the first m queues |
| CopyLib.PoolQueued | SourceCode/copylib.cpp:85-86 | a line is among all queued lines exactly when some queue holds it |
| CopyLib.AnyOrderTotals | SourceCode/copylib.cpp:137-138 | when no copy target is a source, copying every queued line once in any order counts every line once and adds exactly the sources' sizes |
| CopyLib.AnyOrderFlag | SourceCode/copylib.cpp:132-135 | under the same condition, in any order, the flag ends raised exactly when it was already or some queued source fails |
| CopyLib.WalkDealt | SourceCode/copylib.cpp:78-89 | every walked regular file's relative path is queued somewhere |
| CopyLib.QueuedIsWalked | SourceCode/copylib.cpp:83-86 | every queued line names a walked regular file |
| CopyLib.RunTotals | SourceCode/mainwindow.cpp:118 | after a plan and a full run without cancellation, the file counter has grown by exactly fileNum and the byte counter by exactly scopeSize, so the progress loop ends |
| CopyLib.RunAnyOrder | SourceCode/mainwindow.cpp:118 | after a plan, copying the planned lines in any order, as interleaved workers do, grows the file counter by exactly fileNum and the byte counter by exactly scopeSize |
| CopyLib.RunErrorFlag | SourceCode/mainwindow.cpp:199 | after a plan and a full run without cancellation, the error flag is up exactly when some walked regular file fails to copy |
| CopyLib.RunDelivers | SourceCode/copylib.cpp:128-131 | after a plan and a full run without cancellation, every walked regular file whose copy does not fail sits at its counterpart under the destination with its size, unless that counterpart is a directory, and the workers neither create nor replace a directory |
| CopyLib.RunCancelled | SourceCode/copylib.cpp:123-138 | after a plan, with any cancellation, the file counter grows by exactly the number of entries the workers read before seeing the cancel flag, the byte counter by exactly their sources' sizes, and the flag ends raised exactly when one of those sources fails |
| CopyLib.RunNeverOvercounts | SourceCode/copylib.cpp:123-138 | when origin, destination and walked paths hold no newline: with any cancellation the workers never count more files than the plan did |
| CopyLib.IsCopyErrorHappened | SourceCode/copylib.cpp:27-30 | the sticky flag as callers read it; how it moves is stated by CopyLib.Apply, CopyLib.FlagSticky and CopyLib.FlagOnlyFromWorkers |
| CopyLib.Apply | SourceCode/mainwindow.cpp:168-176 | one library call keeps the temporary directory; only planning lowers the flag and only a worker raises it; workers and replication leave the artifacts alone, planning and cleanup leave the disk alone |
| CopyLib.FlagSticky | SourceCode/copylib.cpp:97 | once raised, the flag stays raised through any calls that do not plan |
| CopyLib.FlagOnlyFromWorkers | SourceCode/copylib.cpp:134 | a lowered flag stays lowered through any calls that run no worker |

## Left out

- Threads and atomics. The workers run one after another in `CopyLib.RunWorkers`. `CopyLib.RunAnyOrder` covers any interleaving of their copy steps one file at a time, as far as the counters are concerned, and `CopyLib.AnyOrderFlag` does the same for the flag. Interleavings are not modelled below the level of one file's copy step.
- The copied bytes. `fs::copy` is modelled by the size of the file it leaves at the target. Which copies report an error is an oracle set.
- Worker.CopyLine: a copy that reports an error is modelled as leaving the disk unchanged. A real `fs::copy` with `overwrite_existing` can leave a truncated or partial target behind.
- Worker.CopyLine: when the target is an existing directory, `fs::copy` puts the file inside that directory under the source's file name. The model keeps the directory and does not record that inner file, because paths here are plain strings without separators. So Worker.CopyLinesLand and CopyLib.RunDelivers promise nothing about where such a copy lands.
- Worker.CopyLine: does not model the 64-bit wrap-around of the shared counters `copiedFileSize` and `copiedFileNum`; both are unbounded naturals.
- The queue artifacts are kept apart from the disk map. In the program they are files in the temporary directory. The model assumes the temporary directory lies outside the origin and destination trees. If it lay under the origin, the walk would list the `copy_plan_*.txt` files the planner has just opened, and would plan to copy them.
- The directory walk. It is a given sequence whose entries lie strictly below the origin. Its order, and the exceptions `recursive_directory_iterator` may throw, are not modelled.
- Planner.CreateCopyQueues: an origin that is a regular file passes the existence check (copylib.cpp:45), and then the walk at copylib.cpp:78 throws once the headers are written. The model takes the walk as given, so it plans and lowers the flag.
- Planner.CreateCopyQueues: does not model the 64-bit wrap-around of `scopeSize` and `fileNum`; both are unbounded naturals.
- Planner.CreateCopyQueues: the `new (std::nothrow)` allocation failure is left out; it only returns false before anything is written.
- Paths are compared as strings. `fs::path` comparison and normalisation, parent directories, and links are not modelled. Existence of a path means it is a key of the disk map.
- Worker.Worker: a queue artifact that exists but cannot be opened for reading is treated as a readable one.
- Structure.CopyDirStructure: a queue 0 that exists but cannot be opened for reading is treated as a readable one.
- Structure.CopyDirs: a destination inside the origin's tree that does not exist before the copy is not recognised, because paths here are plain strings. The program then descends into its own output until creating a directory fails. The model detects only a destination that the walk lists (Structure.IntoItself).
- Structure.CopyDirs, Structure.CopyTree, Structure.CopyDirStructure: the counterpart of a walked directory is the plain string `dest + Rel(origin, path)`, which is where the workers copy files (`dest + currentFile`, copylib.cpp:131). The program's recursive `fs::copy` builds it as `to / filename`, and `operator/` inserts a separator. The two agree only when origin and destination both end in a separator or neither does. Otherwise (origin "o/", destination "d") the program replicates "d/sub" while its workers copy into "dsub/…". The model does not show that mismatch.
- Structure.CopyDirs: models the outcome of a directories-only recursive `fs::copy` with update of existing entries, at the level of the abstract disk. Entries that are neither files nor directories and directory/file clashes are errors, and missing parent directories are not modelled. Its error is modelled as `Thrown`, because the exception escapes the library.
- Space.IsEnoughSpace: the available space per path is an oracle map. A path whose volume cannot be queried makes `fs::space` throw; this is modelled as `None`.
- Planner.PlanRoundRobin, CopyLib.RunNeverOvercounts: these hold only when origin, destination and walked paths hold no newline. A file name with a newline is written as two queue lines (`TextLines.NewlineSplitsLine`), so the workers can count more files than the plan did.
- CopyLib.RunTotals, CopyLib.RunAnyOrder, CopyLib.RunErrorFlag, CopyLib.RunDelivers, CopyLib.RunCancelled: these hold only when paths hold no newline, the walked files are still on disk as walked, and no copy target is a walked file.
- The orchestrator's `startCopy`: the Qt user interface, the progress bar and status text, the sleep-and-poll loop, timing, thread spawn failure and the early return when there are no files are left out. Only the call order is modelled (`CopyLib.Apply`) and the condition the progress loop waits for (`CopyLib.RunTotals`).
- The logger. No implementation of it is in `SourceCode/copylib.cpp`.

Behaviours of `SourceCode/copylib.cpp` that the model keeps as written:

- The worker counts a regular file and adds its size even when its copy fails (lines 131-138).
- `copyDirStructure` does not check for an empty header, and does not set the error flag. An error of its copy escapes as an exception (lines 159-166).
- `isEnoughSpace` has no special case for an empty destination. It queries the space directly (lines 188-192).
- The worker keeps no count of finished workers.

=== FILE: copylib.dfy ===
/** The library's entry points as the orchestrator drives them: plan the queues, replicate the
    directory tree, run one worker per queue, then remove the queues; and the error flag that
    survives across these calls. */
module CopyLib {
  import opened Optional
  import opened FileSystem
  import opened TextLines
  import opened QueueFiles
  import opened Planner
  import opened Worker
  import Structure
  import RoundRobin

  /** The library's sticky error flag, as its callers read it. */
  function IsCopyErrorHappened(w: World): bool {
    w.copyError
  }

  /** Removes the artifacts of queues 0 .. hardwConcur-1, passing over the missing ones. */
  function RemoveQueues(w: World, hardwConcur: nat): (r: World)
    ensures r == w.(plans := r.plans)
    ensures forall i :: 0 <= i < hardwConcur ==> QueueName(w.tempDir, i) !in r.plans
    ensures forall k :: k in w.plans && !IsQueueBelow(w.tempDir, k, hardwConcur) ==>
      k in r.plans && r.plans[k] == w.plans[k]
    ensures forall k :: k in r.plans ==> k in w.plans
  {
    NamesParse(w.tempDir);
    w.(plans := RemoveCopyQueues(w.plans, w.tempDir, hardwConcur))
  }

  /** When worker `i` sees the cancel flag: `cancel[i]` entries in, or never. */
  function CancelOf(cancel: map<nat, nat>, i: nat): Option<nat> {
    if i in cancel then Some(cancel[i]) else None
  }

  /** Workers 0 .. m-1, each on its own queue artifact, one after another. What each adds to the
      counters and the flag does not depend on their values when it starts
      (Worker.WorkerAdditive); that the order of their copy steps does not matter either, when no
      copy target is a source, is AnyOrderTotals and AnyOrderFlag. */
  function RunWorkers(w: World, m: nat, cancel: map<nat, nat>, failing: set<string>): (r: World)
    ensures r.plans == w.plans && r.tempDir == w.tempDir
    ensures w.copyError ==> r.copyError
    ensures w.copiedNum <= r.copiedNum
    ensures forall k :: IsDir(r.disk, k) <==> IsDir(w.disk, k)
    decreases m
  {
    if m == 0 then w
    else Worker.Worker(RunWorkers(w, m - 1, cancel, failing), QueueName(w.tempDir, m - 1), CancelOf(cancel, m - 1), failing)
  }

  /** Queue i of the world reads back as the two header lines followed by `qs[i]`. */
  predicate QueuesRead(w: World, origin: string, dest: string, qs: seq<seq<string>>) {
    forall i :: 0 <= i < |qs| ==>
      QueueName(w.tempDir, i) in w.plans && Lines(w.plans[QueueName(w.tempDir, i)]) == [origin, dest] + qs[i]
  }

  /** Every queued line is one of `rels`. */
  predicate Drawn(qs: seq<seq<string>>, rels: seq<string>) {
    forall i, l :: 0 <= i < |qs| && l in qs[i] ==> l in rels
  }

  lemma QueueNameNonempty(tempDir: string, i: nat)
    ensures QueueName(tempDir, i) != ""
  {
    assert |QueueName(tempDir, i)| >= |GetTempFN()|;
  }

  /** A worker without cancellation on queue i runs the copy loop over exactly `qs[i]`. */
  lemma WorkerReadsQueue(w: World, origin: string, dest: string, qs: seq<seq<string>>, i: nat, failing: set<string>)
    requires origin != "" && dest != "" && i < |qs|
    requires QueuesRead(w, origin, dest, qs)
    ensures Worker.Worker(w, QueueName(w.tempDir, i), None, failing) == CopyLines(w, origin, dest, qs[i], failing)
  {
    QueueNameNonempty(w.tempDir, i);
    var ls := Lines(w.plans[QueueName(w.tempDir, i)]);
    assert ls[2..] == qs[i];
  }

  /** Without cancellation, worker m-1 runs the copy loop over queue m-1 after the workers
      before it. */
  lemma RunStep(w: World, m: nat, origin: string, dest: string, qs: seq<seq<string>>, failing: set<string>)
    requires 0 < m <= |qs|
    requires origin != "" && dest != ""
    requires QueuesRead(w, origin, dest, qs)
    ensures RunWorkers(w, m, map[], failing)
         == CopyLines(RunWorkers(w, m - 1, map[], failing), origin, dest, qs[m - 1], failing)
  {
    assert CancelOf(map[], m - 1) == None;
    WorkerReadsQueue(RunWorkers(w, m - 1, map[], failing), origin, dest, qs, m - 1, failing);
  }

  /** The copy loops over the queues `qs`, first to last: what the workers do once each has read
      its queue. */
  function RunLoops(w: World, origin: string, dest: string, qs: seq<seq<string>>, failing: set<string>): (r: World)
    ensures forall k :: IsDir(r.disk, k) <==> IsDir(w.disk, k)
    decreases |qs|
  {
    if |qs| == 0 then w
    else CopyLines(RunLoops(w, origin, dest, qs[..|qs| - 1], failing), origin, dest, qs[|qs| - 1], failing)
  }

  /** Without cancellation, the first m workers run the copy loops over the first m queues. */
  lemma {:induction false} RunIsLoops(w: World, m: nat, origin: string, dest: string, qs: seq<seq<string>>,
                                      failing: set<string>)
    requires m <= |qs|
    requires origin != "" && dest != ""
    requires QueuesRead(w, origin, dest, qs)
    ensures RunWorkers(w, m, map[], failing) == RunLoops(w, origin, dest, qs[..m], failing)
    decreases m
  {
    if m > 0 {
      RunIsLoops(w, m - 1, origin, dest, qs, failing);
      RunStep(w, m, origin, dest, qs, failing);
      LoopsStep(w, origin, dest, qs, m, failing);
    }
  }

  /** The copy loops leave every source of `rels` as it was. */
  lemma {:induction false} LoopsIntact(w: World, origin: string, dest: string, qs: seq<seq<string>>,
                                       rels: seq<string>, disk0: Disk, failing: set<string>)
    requires Drawn(qs, rels)
    requires Copyable(disk0, origin, dest, rels)
    requires Intact(disk0, w.disk, origin, rels)
    ensures Intact(disk0, RunLoops(w, origin, dest, qs, failing).disk, origin, rels)
    decreases |qs|
  {
    if |qs| > 0 {
      var p := qs[..|qs| - 1];
      assert Drawn(p, rels);
      LoopsIntact(w, origin, dest, p, rels, disk0, failing);
      assert forall l :: l in qs[|qs| - 1] ==> l in rels;
      CopyLinesTotals(RunLoops(w, origin, dest, p, failing), origin, dest, qs[|qs| - 1], failing, disk0, rels);
    }
  }

  /** The copy loops count every queued line once and add its source's size. */
  lemma {:induction false} LoopsCounts(w: World, origin: string, dest: string, qs: seq<seq<string>>,
                                       rels: seq<string>, disk0: Disk, failing: set<string>)
    requires Drawn(qs, rels)
    requires Copyable(disk0, origin, dest, rels)
    requires Intact(disk0, w.disk, origin, rels)
    ensures var r := RunLoops(w, origin, dest, qs, failing);
      && r.copiedNum == w.copiedNum + TotalLines(qs)
      && r.copiedSize == w.copiedSize + TotalBytes(qs, disk0, origin)
    decreases |qs|
  {
    if |qs| > 0 {
      var p := qs[..|qs| - 1];
      assert Drawn(p, rels);
      LoopsCounts(w, origin, dest, p, rels, disk0, failing);
      LoopsIntact(w, origin, dest, p, rels, disk0, failing);
      assert forall l :: l in qs[|qs| - 1] ==> l in rels;
      CopyLinesTotals(RunLoops(w, origin, dest, p, failing), origin, dest, qs[|qs| - 1], failing, disk0, rels);
    }
  }

  /** After the copy loops the flag is raised exactly when it was already or some queued source
      fails to copy. */
  lemma {:induction false} LoopsFlag(w: World, origin: string, dest: string, qs: seq<seq<string>>,
                                     rels: seq<string>, disk0: Disk, failing: set<string>)
    requires Drawn(qs, rels)
    requires Copyable(disk0, origin, dest, rels)
    requires Intact(disk0, w.disk, origin, rels)
    ensures RunLoops(w, origin, dest, qs, failing).copyError <==>
      w.copyError || exists i, l :: 0 <= i < |qs| && l in qs[i] && origin + l in failing
    decreases |qs|
  {
    if |qs| > 0 {
      var m := |qs| - 1;
      var p := qs[..m];
      assert Drawn(p, rels);
      LoopsFlag(w, origin, dest, p, rels, disk0, failing);
      LoopsIntact(w, origin, dest, p, rels, disk0, failing);
      assert forall l :: l in qs[m] ==> l in rels;
      CopyLinesFlag(RunLoops(w, origin, dest, p, failing), origin, dest, qs[m], failing, disk0, rels);
      if i, l :| 0 <= i < |qs| && l in qs[i] && origin + l in failing {
        if i < m {
          assert p[i] == qs[i];
        }
      }
      if i, l :| 0 <= i < |p| && l in p[i] && origin + l in failing {
        assert p[i] == qs[i];
      }
    }
  }

  /** After the copy loops every queued line whose source copies without error has landed,
      unless its target was a directory. */
  lemma {:induction false} LoopsLand(w: World, origin: string, dest: string, qs: seq<seq<string>>,
                                     rels: seq<string>, disk0: Disk, failing: set<string>)
    requires Drawn(qs, rels)
    requires Copyable(disk0, origin, dest, rels)
    requires Intact(disk0, w.disk, origin, rels)
    ensures var r := RunLoops(w, origin, dest, qs, failing);
      forall i, l :: 0 <= i < |qs| && l in qs[i] && origin + l !in failing && !IsDir(w.disk, dest + l) ==>
        Landed(disk0, r.disk, origin, dest, l)
    decreases |qs|
  {
    if |qs| > 0 {
      var m := |qs| - 1;
      var p := qs[..m];
      assert Drawn(p, rels);
      LoopsLand(w, origin, dest, p, rels, disk0, failing);
      LoopsIntact(w, origin, dest, p, rels, disk0, failing);
      assert forall l :: l in qs[m] ==> l in rels;
      var prev := RunLoops(w, origin, dest, p, failing);
      CopyLinesLand(prev, origin, dest, qs[m], failing, disk0, rels);
      forall i, l | 0 <= i < |qs| && l in qs[i] && origin + l !in failing && !IsDir(w.disk, dest + l)
        ensures Landed(disk0, RunLoops(w, origin, dest, qs, failing).disk, origin, dest, l)
      {
        if i < m {
          assert p[i] == qs[i];
          assert Landed(disk0, prev.disk, origin, dest, l);
        }
      }
    }
  }

  /** A line is among all lines of the queues exactly when some queue holds it. */
  lemma {:induction false} PoolQueued(qs: seq<seq<string>>, l: string)
    ensures l in Pool(qs) <==> Queued(qs, l)
    decreases |qs|
  {
    if |qs| > 0 {
      var m := |qs| - 1;
      PoolQueued(qs[..m], l);
      if Queued(qs[..m], l) {
        var i :| 0 <= i < m && l in qs[..m][i];
        assert l in qs[i];
      }
      if Queued(qs, l) && !(l in qs[m]) {
        var i :| 0 <= i < |qs| && l in qs[i];
        assert l in qs[..m][i];
      }
    }
  }

  /** A run of the copy step over every queued line once, in any order: the order the workers'
      steps take when they interleave. */
  predicate Reordering(lines: seq<string>, qs: seq<seq<string>>) {
    multiset(lines) == Pool(qs)
  }

  lemma ReorderingDrawn(lines: seq<string>, qs: seq<seq<string>>, rels: seq<string>)
    requires Reordering(lines, qs) && Drawn(qs, rels)
    ensures forall l :: l in lines ==> Queued(qs, l) && l in rels
  {
    forall l | l in lines ensures Queued(qs, l) && l in rels {
      assert l in multiset(lines);
      PoolQueued(qs, l);
    }
  }

  /** However the workers' copy steps interleave, the counters end at the same totals: every
      queued line is counted once and its source's size added, when no copy target is a source. */
  lemma AnyOrderTotals(w: World, origin: string, dest: string, qs: seq<seq<string>>, lines: seq<string>,
                       rels: seq<string>, disk0: Disk, failing: set<string>)
    requires Drawn(qs, rels)
    requires Copyable(disk0, origin, dest, rels)
    requires Intact(disk0, w.disk, origin, rels)
    requires Reordering(lines, qs)
    ensures var r := CopyLines(w, origin, dest, lines, failing);
      && r.copiedNum == w.copiedNum + TotalLines(qs)
      && r.copiedSize == w.copiedSize + TotalBytes(qs, disk0, origin)
  {
    ReorderingDrawn(lines, qs, rels);
    CopyLinesTotals(w, origin, dest, lines, failing, disk0, rels);
    FlattenTotals(qs, disk0, origin);
    SourceBytesPermutation(lines, Flatten(qs), disk0, origin);
    assert |lines| == |multiset(lines)| == |multiset(Flatten(qs))|;
  }

  /** However the workers' copy steps interleave, the flag ends raised exactly when it was already
      or some queued source fails to copy. */
  lemma AnyOrderFlag(w: World, origin: string, dest: string, qs: seq<seq<string>>, lines: seq<string>,
                     rels: seq<string>, disk0: Disk, failing: set<string>)
    requires Drawn(qs, rels)
    requires Copyable(disk0, origin, dest, rels)
    requires Intact(disk0, w.disk, origin, rels)
    requires Reordering(lines, qs)
    ensures CopyLines(w, origin, dest, lines, failing).copyError <==>
      w.copyError || exists i, l :: 0 <= i < |qs| && l in qs[i] && origin + l in failing
  {
    ReorderingDrawn(lines, qs, rels);
    CopyLinesFlag(w, origin, dest, lines, failing, disk0, rels);
    if i, l :| 0 <= i < |qs| && l in qs[i] && origin + l in failing {
      assert Queued(qs, l);
      PoolQueued(qs, l);
      assert l in multiset(lines);
    }
  }

  /** With any cancellation, the first m workers count at most the lines of their queues. */
  lemma {:induction false} RunBound(w: World, m: nat, origin: string, dest: string, qs: seq<seq<string>>,
                                    cancel: map<nat, nat>, failing: set<string>)
    requires m <= |qs|
    requires QueuesRead(w, origin, dest, qs)
    ensures RunWorkers(w, m, cancel, failing).copiedNum <= w.copiedNum + TotalLines(qs[..m])
    decreases m
  {
    if m > 0 {
      RunBound(w, m - 1, origin, dest, qs, cancel, failing);
      var prev := RunWorkers(w, m - 1, cancel, failing);
      var ls := Lines(prev.plans[QueueName(w.tempDir, m - 1)]);
      assert Entries(prev.plans[QueueName(w.tempDir, m - 1)]) == qs[m - 1] by {
        assert ls[2..] == qs[m - 1];
      }
      assert qs[..m][..m - 1] == qs[..m - 1];
    }
  }

  /** The part of each queue its worker reads: all of it, or the first `cancel[i]` entries when
      worker i sees the cancel flag there. */
  function Cut(qs: seq<seq<string>>, cancel: map<nat, nat>): seq<seq<string>> {
    seq(|qs|, i requires 0 <= i < |qs| => Observed(qs[i], CancelOf(cancel, i)))
  }

  /** Worker i runs the copy loop over the part of queue i it reads. */
  lemma WorkerReadsCut(w: World, origin: string, dest: string, qs: seq<seq<string>>, i: nat,
                       cancel: map<nat, nat>, failing: set<string>)
    requires origin != "" && dest != "" && i < |qs|
    requires QueuesRead(w, origin, dest, qs)
    ensures Worker.Worker(w, QueueName(w.tempDir, i), CancelOf(cancel, i), failing)
         == CopyLines(w, origin, dest, Cut(qs, cancel)[i], failing)
  {
    QueueNameNonempty(w.tempDir, i);
    var ls := Lines(w.plans[QueueName(w.tempDir, i)]);
    assert ls[2..] == qs[i];
  }

  /** The copy loops over the first m queues are those over the first m-1, then queue m-1. */
  lemma LoopsStep(w: World, origin: string, dest: string, qs: seq<seq<string>>, m: nat, failing: set<string>)
    requires 0 < m <= |qs|
    ensures RunLoops(w, origin, dest, qs[..m], failing)
         == CopyLines(RunLoops(w, origin, dest, qs[..m - 1], failing), origin, dest, qs[m - 1], failing)
  {
    assert qs[..m][..m - 1] == qs[..m - 1];
  }

  /** With any cancellation, worker m-1 runs the copy loop over the part of queue m-1 it reads,
      after the workers before it. */
  lemma CutStep(w: World, m: nat, origin: string, dest: string, qs: seq<seq<string>>,
                cancel: map<nat, nat>, failing: set<string>)
    requires 0 < m <= |qs|
    requires origin != "" && dest != ""
    requires QueuesRead(w, origin, dest, qs)
    ensures RunWorkers(w, m, cancel, failing)
         == CopyLines(RunWorkers(w, m - 1, cancel, failing), origin, dest, Cut(qs, cancel)[m - 1], failing)
  {
    WorkerReadsCut(RunWorkers(w, m - 1, cancel, failing), origin, dest, qs, m - 1, cancel, failing);
  }

  /** With any cancellation, the first m workers run the copy loops over the parts of the first m
      queues they read. */
  lemma {:induction false} RunIsCutLoops(w: World, m: nat, origin: string, dest: string, qs: seq<seq<string>>,
                                         cancel: map<nat, nat>, failing: set<string>)
    requires m <= |qs|
    requires origin != "" && dest != ""
    requires QueuesRead(w, origin, dest, qs)
    ensures RunWorkers(w, m, cancel, failing) == RunLoops(w, origin, dest, Cut(qs, cancel)[..m], failing)
    decreases m
  {
    if m > 0 {
      RunIsCutLoops(w, m - 1, origin, dest, qs, cancel, failing);
      CutStep(w, m, origin, dest, qs, cancel, failing);
      LoopsStep(w, origin, dest, Cut(qs, cancel), m, failing);
    }
  }

  lemma CutDrawn(qs: seq<seq<string>>, cancel: map<nat, nat>, rels: seq<string>)
    requires Drawn(qs, rels)
    ensures Drawn(Cut(qs, cancel), rels)
  {
    var cut := Cut(qs, cancel);
    forall i, l | 0 <= i < |cut| && l in cut[i] ensures l in rels {
      var j :| 0 <= j < |cut[i]| && cut[i][j] == l;
      assert qs[i][j] == l;
    }
  }

  /** A run with cancellation after a successful plan: each worker counts exactly the entries it
      read before it saw the cancel flag, adds exactly their sources' sizes, and the flag ends
      raised exactly when one of those sources fails to copy. */
  lemma RunCancelled(w: World, origin: string, dest: string, n: nat, walk: seq<WalkEntry>,
                     unwritable: set<string>, disk: Disk, cancel: map<nat, nat>, failing: set<string>)
    requires Rooted(origin, walk)
    requires CreateCopyQueues(w, origin, dest, n, walk, unwritable).outcome.Planned?
    requires Undisturbed(origin, dest, walk, disk)
    ensures var p := CreateCopyQueues(w, origin, dest, n, walk, unwritable);
      var cut := Cut(ScanWalk(origin, n, walk).queues, cancel);
      var r := RunWorkers(p.world.(disk := disk), n, cancel, failing);
      && r.copiedNum == w.copiedNum + TotalLines(cut)
      && r.copiedSize == w.copiedSize + TotalBytes(cut, disk, origin)
      && (IsCopyErrorHappened(r) <==> exists i, l :: 0 <= i < |cut| && l in cut[i] && origin + l in failing)
  {
    var p := CreateCopyQueues(w, origin, dest, n, walk, unwritable);
    var qs := ScanWalk(origin, n, walk).queues;
    var cut := Cut(qs, cancel);
    var rels := RelFiles(origin, walk);
    PlanQueues(w, origin, dest, n, walk, unwritable, disk);
    WalkDrawn(origin, n, walk);
    CutDrawn(qs, cancel, rels);
    WalkCopyable(origin, dest, walk, disk);
    RunIsCutLoops(p.world.(disk := disk), n, origin, dest, qs, cancel, failing);
    assert cut[..n] == cut;
    LoopsCounts(p.world.(disk := disk), origin, dest, cut, rels, disk, failing);
    LoopsFlag(p.world.(disk := disk), origin, dest, cut, rels, disk, failing);
  }

  /** The walk a plan was made from, as the disk sees it when the workers start: every walked
      regular file is still there with the walked size, no copy target is a walked file, and no
      path holds a newline. */
  predicate Undisturbed(origin: string, dest: string, walk: seq<WalkEntry>, disk: Disk)
    requires Rooted(origin, walk)
  {
    && NoNewline(origin) && NoNewline(dest)
    && (forall e :: e in walk ==> NoNewline(e.path))
    && (forall e :: e in walk && e.kind.File? ==> e.path in disk && disk[e.path] == e.kind)
    && (forall a, b :: a in walk && b in walk && a.kind.File? && b.kind.File? ==> dest + Rel(origin, a.path) != b.path)
  }

  /** After a successful plan, queue i reads back as the header lines and the i-th queue of the
      walk loop, on whatever disk the workers meet. */
  lemma PlanQueues(w: World, origin: string, dest: string, n: nat, walk: seq<WalkEntry>,
                   unwritable: set<string>, disk: Disk)
    requires Rooted(origin, walk)
    requires CreateCopyQueues(w, origin, dest, n, walk, unwritable).outcome.Planned?
    requires NoNewline(origin) && NoNewline(dest)
    requires forall e :: e in walk ==> NoNewline(e.path)
    ensures n > 0 && origin != "" && dest != ""
    ensures QueuesRead(CreateCopyQueues(w, origin, dest, n, walk, unwritable).world.(disk := disk),
                       origin, dest, ScanWalk(origin, n, walk).queues)
  {
    PlanRoundRobin(w, origin, dest, n, walk, unwritable);
    ScanColumns(origin, n, walk);
  }

  /** Every line the walk loop queues is one of the relative paths of the walk's files. */
  lemma WalkDrawn(origin: string, n: nat, walk: seq<WalkEntry>)
    requires n > 0 && Rooted(origin, walk)
    ensures Drawn(ScanWalk(origin, n, walk).queues, RelFiles(origin, walk))
  {
    var qs := ScanWalk(origin, n, walk).queues;
    var rels := RelFiles(origin, walk);
    ScanColumns(origin, n, walk);
    forall i, l | 0 <= i < |qs| && l in qs[i] ensures l in rels {
      RoundRobin.ColumnMembers(rels, n, i);
    }
  }

  /** The relative paths of the walk's files name walked regular files. */
  lemma RelsAreWalked(origin: string, walk: seq<WalkEntry>)
    requires Rooted(origin, walk)
    ensures forall l :: l in RelFiles(origin, walk) ==>
      l != "" && exists e :: e in walk && e.kind.File? && e.path == origin + l && Rel(origin, e.path) == l
  {
    var rels := RelFiles(origin, walk);
    forall l | l in rels
      ensures l != "" && exists e :: e in walk && e.kind.File? && e.path == origin + l && Rel(origin, e.path) == l
    {
      var k :| 0 <= k < |rels| && rels[k] == l;
      RelFilesAreRel(origin, walk, k);
    }
  }

  /** On a disk the walk left undisturbed, the walk's relative paths are safe to copy. */
  lemma WalkCopyable(origin: string, dest: string, walk: seq<WalkEntry>, disk: Disk)
    requires Rooted(origin, walk)
    requires Undisturbed(origin, dest, walk, disk)
    ensures Copyable(disk, origin, dest, RelFiles(origin, walk))
  {
    RelsAreWalked(origin, walk);
  }

  /** The k-th regular file's relative path is dealt to queue k mod n. */
  lemma FileDealt(origin: string, n: nat, walk: seq<WalkEntry>, k: nat)
    requires n > 0 && Rooted(origin, walk)
    requires k < |RelFiles(origin, walk)|
    ensures k % n < n
    ensures RelFiles(origin, walk)[k] in ScanWalk(origin, n, walk).queues[k % n]
  {
    var rels := RelFiles(origin, walk);
    var i := k % n;
    assert rels[k] in RoundRobin.Column(rels, n, i) by {
      RoundRobin.DealtMember(rels, n, k);
    }
    assert ScanWalk(origin, n, walk).queues[i] == RoundRobin.Column(rels, n, i) by {
      ScanColumns(origin, n, walk);
    }
  }

  /** `l` is a line of one of the queues. */
  predicate Queued(qs: seq<seq<string>>, l: string) {
    exists i :: 0 <= i < |qs| && l in qs[i]
  }

  /** Every walked regular file's relative path is dealt to some queue. */
  lemma WalkDealt(origin: string, n: nat, walk: seq<WalkEntry>)
    requires n > 0 && Rooted(origin, walk)
    ensures forall e :: e in walk && e.kind.File? ==> Queued(ScanWalk(origin, n, walk).queues, Rel(origin, e.path))
  {
    FilesComplete(walk);
    forall e | e in walk && e.kind.File?
      ensures Queued(ScanWalk(origin, n, walk).queues, Rel(origin, e.path))
    {
      var k :| 0 <= k < |Files(walk)| && Files(walk)[k] == e;
      RelFilesAreRel(origin, walk, k);
      FileDealt(origin, n, walk, k);
      var qs := ScanWalk(origin, n, walk).queues;
      assert 0 <= k % n < |qs| && Rel(origin, e.path) in qs[k % n];
    }
  }

  /** A queued line names a walked regular file. */
  lemma QueuedIsWalked(origin: string, n: nat, walk: seq<WalkEntry>, i: nat, l: string)
    requires n > 0 && Rooted(origin, walk)
    requires i < |ScanWalk(origin, n, walk).queues| && l in ScanWalk(origin, n, walk).queues[i]
    ensures exists e :: e in walk && e.kind.File? && e.path == origin + l
  {
    assert l in RelFiles(origin, walk) by {
      WalkDrawn(origin, n, walk);
    }
    RelsAreWalked(origin, walk);
  }

  /** Some queued line names a failing source exactly when some walked regular file fails. */
  lemma FailingQueued(origin: string, n: nat, walk: seq<WalkEntry>, failing: set<string>)
    requires n > 0 && Rooted(origin, walk)
    ensures var qs := ScanWalk(origin, n, walk).queues;
      (exists i, l :: 0 <= i < |qs| && l in qs[i] && origin + l in failing) <==>
      (exists e :: e in walk && e.kind.File? && e.path in failing)
  {
    var qs := ScanWalk(origin, n, walk).queues;
    if i, l :| 0 <= i < |qs| && l in qs[i] && origin + l in failing {
      QueuedIsWalked(origin, n, walk, i, l);
    }
    if e :| e in walk && e.kind.File? && e.path in failing {
      assert Queued(qs, Rel(origin, e.path)) by {
        WalkDealt(origin, n, walk);
      }
      var i :| 0 <= i < |qs| && Rel(origin, e.path) in qs[i];
      assert origin + Rel(origin, e.path) == e.path;
    }
  }

  /** A complete run without cancellation after a successful plan: the workers count exactly the
      files the plan counted and add exactly the bytes it totalled, so the orchestrator's progress
      loop, which waits for the two file counts to meet, ends. */
  lemma RunTotals(w: World, origin: string, dest: string, n: nat, walk: seq<WalkEntry>,
                  unwritable: set<string>, disk: Disk, failing: set<string>)
    requires Rooted(origin, walk)
    requires CreateCopyQueues(w, origin, dest, n, walk, unwritable).outcome.Planned?
    requires Undisturbed(origin, dest, walk, disk)
    ensures var p := CreateCopyQueues(w, origin, dest, n, walk, unwritable);
      var r := RunWorkers(p.world.(disk := disk), n, map[], failing);
      && r.copiedNum == w.copiedNum + p.outcome.fileNum
      && r.copiedSize == w.copiedSize + p.outcome.scopeSize
  {
    var p := CreateCopyQueues(w, origin, dest, n, walk, unwritable);
    var qs := ScanWalk(origin, n, walk).queues;
    var rels := RelFiles(origin, walk);
    PlanQueues(w, origin, dest, n, walk, unwritable, disk);
    WalkDrawn(origin, n, walk);
    WalkCopyable(origin, dest, walk, disk);
    RunIsLoops(p.world.(disk := disk), n, origin, dest, qs, failing);
    assert qs[..n] == qs;
    LoopsCounts(p.world.(disk := disk), origin, dest, qs, rels, disk, failing);
    ScanTally(origin, n, walk, disk);
    SourceBytesOfWalk(origin, walk, disk);
  }

  /** The same totals when the workers' copy steps interleave in any order: copying the planned
      lines in any order counts exactly the files the plan counted and adds exactly the bytes it
      totalled. */
  lemma RunAnyOrder(w: World, origin: string, dest: string, n: nat, walk: seq<WalkEntry>,
                    unwritable: set<string>, disk: Disk, failing: set<string>, lines: seq<string>)
    requires Rooted(origin, walk)
    requires CreateCopyQueues(w, origin, dest, n, walk, unwritable).outcome.Planned?
    requires Undisturbed(origin, dest, walk, disk)
    requires n > 0 && Reordering(lines, ScanWalk(origin, n, walk).queues)
    ensures var p := CreateCopyQueues(w, origin, dest, n, walk, unwritable);
      var r := CopyLines(p.world.(disk := disk), origin, dest, lines, failing);
      && r.copiedNum == w.copiedNum + p.outcome.fileNum
      && r.copiedSize == w.copiedSize + p.outcome.scopeSize
  {
    var p := CreateCopyQueues(w, origin, dest, n, walk, unwritable);
    var qs := ScanWalk(origin, n, walk).queues;
    var rels := RelFiles(origin, walk);
    WalkDrawn(origin, n, walk);
    WalkCopyable(origin, dest, walk, disk);
    AnyOrderTotals(p.world.(disk := disk), origin, dest, qs, lines, rels, disk, failing);
    ScanTally(origin, n, walk, disk);
    SourceBytesOfWalk(origin, walk, disk);
  }

  /** A complete run without cancellation after a successful plan raises the error flag exactly
      when some walked regular file fails to copy. */
  lemma RunErrorFlag(w: World, origin: string, dest: string, n: nat, walk: seq<WalkEntry>,
                     unwritable: set<string>, disk: Disk, failing: set<string>)
    requires Rooted(origin, walk)
    requires CreateCopyQueues(w, origin, dest, n, walk, unwritable).outcome.Planned?
    requires Undisturbed(origin, dest, walk, disk)
    ensures var p := CreateCopyQueues(w, origin, dest, n, walk, unwritable);
      IsCopyErrorHappened(RunWorkers(p.world.(disk := disk), n, map[], failing)) <==>
        exists e :: e in walk && e.kind.File? && e.path in failing
  {
    var p := CreateCopyQueues(w, origin, dest, n, walk, unwritable);
    var qs := ScanWalk(origin, n, walk).queues;
    var rels := RelFiles(origin, walk);
    PlanQueues(w, origin, dest, n, walk, unwritable, disk);
    WalkDrawn(origin, n, walk);
    WalkCopyable(origin, dest, walk, disk);
    RunIsLoops(p.world.(disk := disk), n, origin, dest, qs, failing);
    assert qs[..n] == qs;
    LoopsFlag(p.world.(disk := disk), origin, dest, qs, rels, disk, failing);
    FailingQueued(origin, n, walk, failing);
  }

  /** A complete run without cancellation after a successful plan leaves every walked regular
      file whose copy does not fail at its counterpart under the destination, with its size,
      unless that counterpart is a directory; the workers neither create nor replace one. */
  lemma RunDelivers(w: World, origin: string, dest: string, n: nat, walk: seq<WalkEntry>,
                    unwritable: set<string>, disk: Disk, failing: set<string>)
    requires Rooted(origin, walk)
    requires CreateCopyQueues(w, origin, dest, n, walk, unwritable).outcome.Planned?
    requires Undisturbed(origin, dest, walk, disk)
    ensures var p := CreateCopyQueues(w, origin, dest, n, walk, unwritable);
      var r := RunWorkers(p.world.(disk := disk), n, map[], failing);
      && (forall e :: e in walk && e.kind.File? && e.path !in failing && !IsDir(disk, dest + Rel(origin, e.path)) ==>
            dest + Rel(origin, e.path) in r.disk && r.disk[dest + Rel(origin, e.path)] == e.kind)
      && (forall k :: IsDir(r.disk, k) <==> IsDir(disk, k))
  {
    var p := CreateCopyQueues(w, origin, dest, n, walk, unwritable);
    var qs := ScanWalk(origin, n, walk).queues;
    var rels := RelFiles(origin, walk);
    var r := RunWorkers(p.world.(disk := disk), n, map[], failing);
    PlanQueues(w, origin, dest, n, walk, unwritable, disk);
    WalkDrawn(origin, n, walk);
    WalkCopyable(origin, dest, walk, disk);
    RunIsLoops(p.world.(disk := disk), n, origin, dest, qs, failing);
    assert qs[..n] == qs;
    LoopsLand(p.world.(disk := disk), origin, dest, qs, rels, disk, failing);
    WalkDealt(origin, n, walk);
    forall e | e in walk && e.kind.File? && e.path !in failing && !IsDir(disk, dest + Rel(origin, e.path))
      ensures dest + Rel(origin, e.path) in r.disk && r.disk[dest + Rel(origin, e.path)] == e.kind
    {
      assert Queued(qs, Rel(origin, e.path));
      var i :| 0 <= i < |qs| && Rel(origin, e.path) in qs[i];
      assert origin + Rel(origin, e.path) == e.path;
      assert Landed(disk, r.disk, origin, dest, Rel(origin, e.path));
    }
  }

  /** With any cancellation, the workers never count more files than the plan did. */
  lemma RunNeverOvercounts(w: World, origin: string, dest: string, n: nat, walk: seq<WalkEntry>,
                           unwritable: set<string>, disk: Disk, cancel: map<nat, nat>, failing: set<string>)
    requires Rooted(origin, walk)
    requires CreateCopyQueues(w, origin, dest, n, walk, unwritable).outcome.Planned?
    requires NoNewline(origin) && NoNewline(dest)
    requires forall e :: e in walk ==> NoNewline(e.path)
    ensures var p := CreateCopyQueues(w, origin, dest, n, walk, unwritable);
      RunWorkers(p.world.(disk := disk), n, cancel, failing).copiedNum <= w.copiedNum + p.outcome.fileNum
  {
    var p := CreateCopyQueues(w, origin, dest, n, walk, unwritable);
    var qs := ScanWalk(origin, n, walk).queues;
    PlanQueues(w, origin, dest, n, walk, unwritable, disk);
    RunBound(p.world.(disk := disk), n, origin, dest, qs, cancel, failing);
    assert qs[..n] == qs;
    ScanTally(origin, n, walk, disk);
  }

  /** One call into the library, with the environment it meets. */
  datatype Call =
    | Plan(origin: string, dest: string, hardwConcur: nat, walk: seq<WalkEntry>, unwritable: set<string>)
    | Replicate(walkOf: string -> seq<WalkEntry>)
    | RunWorker(queue: string, cancel: Option<nat>, failing: set<string>)
    | Cleanup(hardwConcur: nat)

  /** The walks a call is given are walks of what they claim to walk. */
  ghost predicate WellFormed(c: Call) {
    match c
    case Plan(origin, _, _, walk, _) => Rooted(origin, walk)
    case Replicate(walkOf) => forall o :: Rooted(o, walkOf(o))
    case _ => true
  }

  /** The world after one call; None when the call raises an error. */
  function Apply(w: World, c: Call): (r: Option<World>)
    requires WellFormed(c)
    ensures !c.Replicate? ==> r.Some?
    ensures r.Some? ==> r.value.tempDir == w.tempDir
    // the flag is cleared only by planning, and raised only by a worker
    ensures r.Some? && !c.Plan? && w.copyError ==> r.value.copyError
    ensures r.Some? && !c.RunWorker? && !w.copyError ==> !r.value.copyError
    // workers and replication leave the queue artifacts alone; planning and cleanup the disk
    ensures r.Some? && (c.RunWorker? || c.Replicate?) ==> r.value.plans == w.plans
    ensures r.Some? && (c.Plan? || c.Cleanup?) ==> r.value.disk == w.disk
  {
    match c
    case Plan(origin, dest, n, walk, unwritable) => Some(CreateCopyQueues(w, origin, dest, n, walk, unwritable).world)
    case Replicate(walkOf) =>
      (match Structure.CopyDirStructure(w, walkOf)
       case Skipped => Some(w)
       case Thrown => None
       case Replicated(d) => Some(w.(disk := d)))
    case RunWorker(queue, cancel, failing) => Some(Worker.Worker(w, queue, cancel, failing))
    case Cleanup(n) => Some(RemoveQueues(w, n))
  }

  /** A sequence of calls, first to last; None once one raises an error. */
  function ApplyAll(w: World, cs: seq<Call>): Option<World>
    requires forall c :: c in cs ==> WellFormed(c)
    decreases |cs|
  {
    if |cs| == 0 then Some(w)
    else
      var last := cs[|cs| - 1];
      assert last in cs;
      assert forall c :: c in cs[..|cs| - 1] ==> c in cs;
      match ApplyAll(w, cs[..|cs| - 1])
      case None => None
      case Some(v) => Apply(v, last)
  }

  /** Once raised, the error flag stays raised through any calls that do not plan. */
  lemma {:induction false} FlagSticky(w: World, cs: seq<Call>)
    requires forall c :: c in cs ==> WellFormed(c)
    requires IsCopyErrorHappened(w)
    requires forall c :: c in cs ==> !c.Plan?
    ensures ApplyAll(w, cs).Some? ==> IsCopyErrorHappened(ApplyAll(w, cs).value)
    decreases |cs|
  {
    if |cs| > 0 {
      assert cs[|cs| - 1] in cs;
      assert forall c :: c in cs[..|cs| - 1] ==> c in cs;
      FlagSticky(w, cs[..|cs| - 1]);
    }
  }

  /** Only a worker raises the error flag: a lowered flag stays lowered through calls that run
      none. */
  lemma {:induction false} FlagOnlyFromWorkers(w: World, cs: seq<Call>)
    requires forall c :: c in cs ==> WellFormed(c)
    requires !IsCopyErrorHappened(w)
    requires forall c :: c in cs ==> !c.RunWorker?
    ensures ApplyAll(w, cs).Some? ==> !IsCopyErrorHappened(ApplyAll(w, cs).value)
    decreases |cs|
  {
    if |cs| > 0 {
      assert cs[|cs| - 1] in cs;
      assert forall c :: c in cs[..|cs| - 1] ==> c in cs;
      FlagOnlyFromWorkers(w, cs[..|cs| - 1]);
    }
  }
}

=== FILE: decimal.dfy ===
/** Decimal text of unsigned integers, as `std::to_string` writes it for a queue index,
    and the parser that reads such text back. */
module Decimal {
  import opened Optional

  predicate IsDigit(c: char) {
    '0' <= c <= '9'
  }

  predicate AllDigits(s: string) {
    forall k :: 0 <= k < |s| ==> IsDigit(s[k])
  }

  function DigitChar(d: nat): (c: char)
    requires d < 10
    ensures IsDigit(c)
  {
    ('0' as int + d) as char
  }

  function DigitValue(c: char): (d: nat)
    requires IsDigit(c)
    ensures d < 10
  {
    c as int - '0' as int
  }

  /** The decimal digits of `n`, most significant first, with no leading zero. */
  function NatToString(n: nat): string
    decreases n
  {
    if n < 10 then [DigitChar(n)] else NatToString(n / 10) + [DigitChar(n % 10)]
  }

  /** Text `NatToString` can produce: digits only, at least one, no leading zero unless it is "0". */
  predicate IsCanonical(s: string) {
    |s| >= 1 && AllDigits(s) && (s[0] == '0' ==> |s| == 1)
  }

  /** The number a digit string denotes. */
  function Value(s: string): nat
    requires AllDigits(s)
    decreases |s|
  {
    if |s| == 0 then 0 else 10 * Value(s[..|s| - 1]) + DigitValue(s[|s| - 1])
  }

  /** Reads canonical decimal text; anything else is rejected. */
  function Parse(s: string): Option<nat> {
    if IsCanonical(s) then Some(Value(s)) else None
  }

  /** Printing gives canonical text that denotes the printed number, and its first digit is
      '0' only for zero. */
  lemma {:induction false} PrintFacts(n: nat)
    ensures IsCanonical(NatToString(n))
    ensures Value(NatToString(n)) == n
    ensures NatToString(n)[0] == '0' <==> n == 0
    decreases n
  {
    if n >= 10 {
      PrintFacts(n / 10);
      var s := NatToString(n);
      var p := NatToString(n / 10);
      assert s == p + [DigitChar(n % 10)];
      assert s[..|s| - 1] == p;
      assert s[0] == p[0];
    }
  }

  /** Parsing what was printed gives the number back. */
  lemma ParsePrint(n: nat)
    ensures Parse(NatToString(n)) == Some(n)
  {
    PrintFacts(n);
  }

  lemma {:induction false} ZeroValueIsZeros(s: string)
    requires AllDigits(s)
    requires |s| >= 1 && s[0] != '0'
    ensures Value(s) >= 1
    decreases |s|
  {
    if |s| > 1 {
      var p := s[..|s| - 1];
      assert p[0] == s[0];
      ZeroValueIsZeros(p);
    }
  }

  /** Printing what was parsed gives the text back: canonical text is the only spelling of its number. */
  lemma {:induction false} PrintParse(s: string)
    requires IsCanonical(s)
    ensures NatToString(Value(s)) == s
    decreases |s|
  {
    if |s| > 1 {
      var p := s[..|s| - 1];
      var d := DigitValue(s[|s| - 1]);
      assert p[0] == s[0];
      assert IsCanonical(p);
      PrintParse(p);
      ZeroValueIsZeros(p);
      var n := Value(s);
      assert n == 10 * Value(p) + d;
      assert n / 10 == Value(p) && n % 10 == d;
      assert DigitChar(d) == s[|s| - 1];
      assert s == p + [s[|s| - 1]];
    } else {
      assert DigitChar(DigitValue(s[0])) == s[0];
    }
  }

  /** Distinct numbers are printed differently. */
  lemma PrintInjective(a: nat, b: nat)
    ensures NatToString(a) == NatToString(b) ==> a == b
  {
    ParsePrint(a);
    ParsePrint(b);
  }
}

=== FILE: file_system.dfy ===
/** The abstract world the copy library acts on: a filesystem as a map from path strings to
    entries, the text artifacts in the temporary directory, the library's sticky error flag and
    the shared progress counters the workers add to. */
module FileSystem {

  /** What a path names. `Other` is anything that is neither a regular file nor a directory
      (a socket, a fifo, a dangling link); a link is seen as what it points to. */
  datatype Entry = File(size: nat) | Dir | Other

  type Disk = map<string, Entry>

  /** One item a recursive directory walk yields: its full path and what it is. */
  datatype WalkEntry = WalkEntry(path: string, kind: Entry)

  /**
   * disk       the filesystem holding origin and destination trees
   * tempDir    the temporary directory path, used as a plain prefix of artifact names
   * plans      text artifacts of the temporary directory, by full path
   * copyError  the library's sticky "some copy failed" flag
   * copiedSize, copiedNum
   *            the caller's shared counters that every worker adds to
   */
  datatype World = World(
    disk: Disk,
    tempDir: string,
    plans: map<string, string>,
    copyError: bool,
    copiedSize: nat,
    copiedNum: nat)

  predicate IsRegular(disk: Disk, p: string) {
    p in disk && disk[p].File?
  }

  /** The byte size of a regular file, zero for anything else. */
  function SizeAt(disk: Disk, p: string): nat {
    if IsRegular(disk, p) then disk[p].size else 0
  }

  predicate IsDir(disk: Disk, p: string) {
    p in disk && disk[p].Dir?
  }

  /** `s` begins with `prefix`. */
  predicate StartsWith(s: string, prefix: string) {
    |prefix| <= |s| && s[..|prefix|] == prefix
  }

  /** `path` names something strictly inside `root`: `root` followed by a nonempty remainder. */
  predicate Below(root: string, path: string) {
    |root| < |path| && StartsWith(path, root)
  }

  /** Every item of the walk lies strictly inside `root`, as every item of a recursive
      directory iteration of `root` does. */
  predicate Rooted(root: string, walk: seq<WalkEntry>) {
    forall e :: e in walk ==> Below(root, e.path)
  }

  /** The path of `path` relative to `root`: what is left once the first `|root|` characters
      are dropped. */
  function Rel(root: string, path: string): (rel: string)
    requires |root| <= |path|
    ensures |rel| == |path| - |root|
    ensures path[..|root|] == root ==> root + rel == path
  {
    path[|root|..]
  }
}

=== FILE: optional.dfy ===
/** An optional value, used where the library either yields something or gives up. */
module Optional {

  datatype Option<+T> = None | Some(value: T)
}

=== FILE: planner.dfy ===
/** The queue planner: validates a copy request, creates one queue artifact per worker,
    deals the regular files of the origin walk round-robin into them and totals their sizes. */
module Planner {
  import opened FileSystem
  import opened TextLines
  import opened QueueFiles
  import RoundRobin

  /** The regular files of a walk, in walk order. */
  function Files(walk: seq<WalkEntry>): (files: seq<WalkEntry>)
    ensures forall e :: e in files ==> e in walk && e.kind.File?
    decreases |walk|
  {
    if |walk| == 0 then []
    else
      var last := walk[|walk| - 1];
      Files(walk[..|walk| - 1]) + (if last.kind.File? then [last] else [])
  }

  /** Total byte size of the regular files of a walk. */
  function Bytes(walk: seq<WalkEntry>): nat
    decreases |walk|
  {
    if |walk| == 0 then 0
    else
      var last := walk[|walk| - 1];
      Bytes(walk[..|walk| - 1]) + (if last.kind.File? then last.kind.size else 0)
  }

  /** The paths of the walk's regular files relative to `origin`, in walk order: the lines the
      planner writes below the headers. */
  function RelFiles(origin: string, walk: seq<WalkEntry>): (rels: seq<string>)
    requires Rooted(origin, walk)
    ensures |rels| == |Files(walk)|
    ensures forall k :: 0 <= k < |rels| ==> origin + rels[k] == Files(walk)[k].path && rels[k] != ""
    decreases |walk|
  {
    if |walk| == 0 then []
    else
      var last := walk[|walk| - 1];
      assert last in walk;
      RelFiles(origin, walk[..|walk| - 1]) + (if last.kind.File? then [Rel(origin, last.path)] else [])
  }

  /** Bytes of the sources `root + l` of the given relative paths, as the disk has them. */
  function SourceBytes(lines: seq<string>, disk: Disk, root: string): nat
    decreases |lines|
  {
    if |lines| == 0 then 0
    else SourceBytes(lines[..|lines| - 1], disk, root) + SizeAt(disk, root + lines[|lines| - 1])
  }

  /** Number of lines over all queues. */
  function TotalLines(qs: seq<seq<string>>): nat
    decreases |qs|
  {
    if |qs| == 0 then 0 else TotalLines(qs[..|qs| - 1]) + |qs[|qs| - 1]|
  }

  /** Source bytes over all queues. */
  function TotalBytes(qs: seq<seq<string>>, disk: Disk, root: string): nat
    decreases |qs|
  {
    if |qs| == 0 then 0 else TotalBytes(qs[..|qs| - 1], disk, root) + SourceBytes(qs[|qs| - 1], disk, root)
  }

  /** All lines of all queues, with multiplicity. */
  function Pool(qs: seq<seq<string>>): multiset<string>
    decreases |qs|
  {
    if |qs| == 0 then multiset{} else Pool(qs[..|qs| - 1]) + multiset(qs[|qs| - 1])
  }

  /** All lines of all queues, queue after queue. */
  function Flatten(qs: seq<seq<string>>): seq<string>
    decreases |qs|
  {
    if |qs| == 0 then [] else Flatten(qs[..|qs| - 1]) + qs[|qs| - 1]
  }

  lemma {:induction false} SourceBytesConcat(a: seq<string>, b: seq<string>, disk: Disk, root: string)
    ensures SourceBytes(a + b, disk, root) == SourceBytes(a, disk, root) + SourceBytes(b, disk, root)
    decreases |b|
  {
    if |b| > 0 {
      assert (a + b)[..|a + b| - 1] == a + b[..|b| - 1];
      SourceBytesConcat(a, b[..|b| - 1], disk, root);
    } else {
      assert a + b == a;
    }
  }

  /** Taking line j out of `b` takes it out of the multiset of lines and its source out of the
      bytes. */
  lemma RemoveLine(b: seq<string>, j: nat, disk: Disk, root: string)
    requires j < |b|
    ensures multiset(b) == multiset(b[..j] + b[j + 1..]) + multiset{b[j]}
    ensures SourceBytes(b, disk, root) == SourceBytes(b[..j] + b[j + 1..], disk, root) + SizeAt(disk, root + b[j])
  {
    var x := b[j];
    assert b == b[..j] + [x] + b[j + 1..];
    assert multiset(b) == multiset(b[..j]) + multiset{x} + multiset(b[j + 1..]);
    SourceBytesConcat(b[..j] + [x], b[j + 1..], disk, root);
    SourceBytesConcat(b[..j], [x], disk, root);
    SourceBytesConcat(b[..j], b[j + 1..], disk, root);
    assert [x][..0] == [];
  }

  /** Source bytes do not depend on the order of the lines. */
  lemma {:induction false} SourceBytesPermutation(a: seq<string>, b: seq<string>, disk: Disk, root: string)
    requires multiset(a) == multiset(b)
    ensures SourceBytes(a, disk, root) == SourceBytes(b, disk, root)
    decreases |a|
  {
    if |a| == 0 {
      assert |multiset(b)| == 0;
    } else {
      var x := a[|a| - 1];
      var a' := a[..|a| - 1];
      assert a == a' + [x];
      assert multiset(a) == multiset(a') + multiset{x};
      assert x in multiset(b);
      var j :| 0 <= j < |b| && b[j] == x;
      var b' := b[..j] + b[j + 1..];
      RemoveLine(b, j, disk, root);
      assert multiset(a') == multiset(b') by {
        forall y ensures multiset(a')[y] == multiset(b')[y] {
          assert multiset(a)[y] == multiset(a')[y] + multiset{x}[y];
          assert multiset(b)[y] == multiset(b')[y] + multiset{x}[y];
        }
      }
      SourceBytesPermutation(a', b', disk, root);
    }
  }

  /** Flattening the queues keeps their line count, their lines and their source bytes. */
  lemma {:induction false} FlattenTotals(qs: seq<seq<string>>, disk: Disk, root: string)
    ensures |Flatten(qs)| == TotalLines(qs)
    ensures multiset(Flatten(qs)) == Pool(qs)
    ensures SourceBytes(Flatten(qs), disk, root) == TotalBytes(qs, disk, root)
    decreases |qs|
  {
    if |qs| > 0 {
      var m := |qs| - 1;
      FlattenTotals(qs[..m], disk, root);
      SourceBytesConcat(Flatten(qs[..m]), qs[m], disk, root);
    }
  }

  /** The planner's state after walking part of the origin tree. */
  datatype Scan = Scan(queues: seq<seq<string>>, scopeSize: nat, fileNum: nat)

  /** The walk loop: each regular file adds its size to `scopeSize`, its relative path to queue
      `fileNum mod n`, and one to `fileNum`; every other entry is passed over. */
  function ScanWalk(origin: string, n: nat, walk: seq<WalkEntry>): (s: Scan)
    requires n > 0
    requires Rooted(origin, walk)
    ensures |s.queues| == n
    ensures s.fileNum == |Files(walk)|
    ensures s.scopeSize == Bytes(walk)
    decreases |walk|
  {
    if |walk| == 0 then Scan(seq(n, _ => []), 0, 0)
    else
      var s := ScanWalk(origin, n, walk[..|walk| - 1]);
      var e := walk[|walk| - 1];
      assert e in walk;
      match e.kind
      case File(size) =>
        var k := s.fileNum % n;
        Scan(s.queues[k := s.queues[k] + [Rel(origin, e.path)]], s.scopeSize + size, s.fileNum + 1)
      case _ => s
  }

  /** How a planning request ended. */
  datatype Outcome =
    | Invalid                              // a bad argument: nothing was touched
    | CannotOpen(index: nat)               // queue `index` could not be opened for writing
    | Planned(scopeSize: nat, fileNum: nat)

  datatype PlanResult = PlanResult(outcome: Outcome, world: World)

  /** The first queue index at or after `from` whose artifact cannot be opened, or `n`. */
  function FirstUnwritable(tempDir: string, n: nat, unwritable: set<string>, from: nat): (i: nat)
    requires from <= n
    ensures from <= i <= n
    ensures forall j :: from <= j < i ==> QueueName(tempDir, j) !in unwritable
    ensures i < n ==> QueueName(tempDir, i) in unwritable
    decreases n - from
  {
    if from == n then n
    else if QueueName(tempDir, from) in unwritable then from
    else FirstUnwritable(tempDir, n, unwritable, from + 1)
  }

  /** Plans a copy of `origin` into `dest` over `hardwConcur` queues. `walk` is what the recursive
      iteration of `origin` yields; `unwritable` holds the artifact paths that cannot be opened
      for writing. */
  function CreateCopyQueues(w: World, origin: string, dest: string, hardwConcur: nat,
                            walk: seq<WalkEntry>, unwritable: set<string>): (r: PlanResult)
    requires Rooted(origin, walk)
    // a bad argument is refused without any effect
    ensures r.outcome.Invalid? <==>
      hardwConcur == 0 || origin == "" || dest == "" ||
      origin !in w.disk || dest !in w.disk || origin == dest
    ensures r.outcome.Invalid? ==> r.world == w
    // only the queue artifacts and the error flag can change
    ensures r.world.disk == w.disk && r.world.tempDir == w.tempDir
    ensures r.world.copiedSize == w.copiedSize && r.world.copiedNum == w.copiedNum
    ensures forall k :: k in w.plans && !IsQueueBelow(w.tempDir, k, hardwConcur) ==>
      k in r.world.plans && r.world.plans[k] == w.plans[k]
    ensures forall k :: k in r.world.plans ==> k in w.plans || IsQueueBelow(w.tempDir, k, hardwConcur)
    // the flag is cleared by a successful plan and by nothing else here
    ensures r.world.copyError == (w.copyError && !r.outcome.Planned?)
    // an open failure leaves the queues before it created and empty
    ensures r.outcome.CannotOpen? ==>
      var i := r.outcome.index;
      && i < hardwConcur
      && QueueName(w.tempDir, i) in unwritable
      && forall j :: 0 <= j < i ==>
           QueueName(w.tempDir, j) !in unwritable &&
           QueueName(w.tempDir, j) in r.world.plans && r.world.plans[QueueName(w.tempDir, j)] == ""
    // a plan is made only when every queue could be opened
    ensures r.outcome.Planned? ==> forall i :: 0 <= i < hardwConcur ==> QueueName(w.tempDir, i) !in unwritable
    // a plan gives every queue the two header lines and counts the walk's regular files
    ensures r.outcome.Planned? ==>
      && (forall i :: 0 <= i < hardwConcur ==>
            QueueName(w.tempDir, i) in r.world.plans &&
            StartsWith(r.world.plans[QueueName(w.tempDir, i)], origin + "\n" + dest + "\n"))
      && r.outcome.fileNum == |Files(walk)|
      && r.outcome.scopeSize == Bytes(walk)
  {
    if hardwConcur == 0 || origin == "" || dest == "" then PlanResult(Invalid, w)
    else if origin !in w.disk || dest !in w.disk || origin == dest then PlanResult(Invalid, w)
    else
      var bad := FirstUnwritable(w.tempDir, hardwConcur, unwritable, 0);
      if bad < hardwConcur then
        PlanResult(CannotOpen(bad), w.(plans := Store(w.plans, w.tempDir, seq(bad, _ => ""))))
      else
        var s := ScanWalk(origin, hardwConcur, walk);
        var texts := seq(hardwConcur, i requires 0 <= i < hardwConcur => Text([origin, dest] + s.queues[i]));
        forall i | 0 <= i < hardwConcur
          ensures StartsWith(texts[i], origin + "\n" + dest + "\n")
        {
          HeaderText(origin, dest, s.queues[i]);
        }
        PlanResult(Planned(s.scopeSize, s.fileNum),
                   w.(plans := Store(w.plans, w.tempDir, texts), copyError := false))
  }

  lemma HeaderText(origin: string, dest: string, rest: seq<string>)
    ensures StartsWith(Text([origin, dest] + rest), origin + "\n" + dest + "\n")
  {
    var lines := [origin, dest] + rest;
    assert lines[1..] == [dest] + rest;
    assert lines[1..][1..] == rest;
    assert Text(lines) == origin + "\n" + (dest + "\n" + Text(rest));
  }

  lemma {:induction false} EmptyQueues(n: nat, disk: Disk, root: string)
    ensures TotalLines(seq(n, _ => [])) == 0
    ensures TotalBytes(seq(n, _ => []), disk, root) == 0
    ensures Pool(seq(n, _ => [])) == multiset{}
    decreases n
  {
    if n > 0 {
      var qs: seq<seq<string>> := seq(n, _ => []);
      assert qs[..n - 1] == seq(n - 1, _ => []);
      EmptyQueues(n - 1, disk, root);
    }
  }

  /** Appending one line to one queue adds exactly that line to the totals. */
  lemma AppendToQueue(qs: seq<seq<string>>, j: nat, x: string, disk: Disk, root: string)
    requires j < |qs|
    ensures TotalLines(qs[j := qs[j] + [x]]) == TotalLines(qs) + 1
    ensures TotalBytes(qs[j := qs[j] + [x]], disk, root) == TotalBytes(qs, disk, root) + SizeAt(disk, root + x)
    ensures Pool(qs[j := qs[j] + [x]]) == Pool(qs) + multiset{x}
  {
    AppendLines(qs, j, x);
    AppendBytes(qs, j, x, disk, root);
    AppendPool(qs, j, x);
  }

  lemma {:induction false} AppendLines(qs: seq<seq<string>>, j: nat, x: string)
    requires j < |qs|
    ensures TotalLines(qs[j := qs[j] + [x]]) == TotalLines(qs) + 1
    decreases |qs|
  {
    var m := |qs| - 1;
    if j == m {
      assert qs[j := qs[j] + [x]][..m] == qs[..m];
    } else {
      assert qs[j := qs[j] + [x]][..m] == qs[..m][j := qs[j] + [x]];
      AppendLines(qs[..m], j, x);
    }
  }

  lemma {:induction false} AppendBytes(qs: seq<seq<string>>, j: nat, x: string, disk: Disk, root: string)
    requires j < |qs|
    ensures TotalBytes(qs[j := qs[j] + [x]], disk, root) == TotalBytes(qs, disk, root) + SizeAt(disk, root + x)
    decreases |qs|
  {
    var m := |qs| - 1;
    if j == m {
      assert (qs[j] + [x])[..|qs[j]|] == qs[j];
      assert qs[j := qs[j] + [x]][..m] == qs[..m];
    } else {
      assert qs[j := qs[j] + [x]][..m] == qs[..m][j := qs[j] + [x]];
      AppendBytes(qs[..m], j, x, disk, root);
    }
  }

  lemma {:induction false} AppendPool(qs: seq<seq<string>>, j: nat, x: string)
    requires j < |qs|
    ensures Pool(qs[j := qs[j] + [x]]) == Pool(qs) + multiset{x}
    decreases |qs|
  {
    var m := |qs| - 1;
    var qs' := qs[j := qs[j] + [x]];
    assert Pool(qs') == Pool(qs'[..m]) + multiset(qs'[m]);
    assert Pool(qs) == Pool(qs[..m]) + multiset(qs[m]);
    if j == m {
      assert qs'[..m] == qs[..m];
      assert multiset(qs[j] + [x]) == multiset(qs[j]) + multiset{x};
    } else {
      assert qs'[..m] == qs[..m][j := qs[j] + [x]];
      AppendPool(qs[..m], j, x);
    }
  }

  /** The walk loop's last step, spelled out for a regular file. */
  lemma ScanStep(origin: string, n: nat, walk: seq<WalkEntry>)
    requires n > 0 && |walk| > 0
    requires Rooted(origin, walk)
    requires walk[|walk| - 1].kind.File?
    ensures var p := walk[..|walk| - 1];
      var s := ScanWalk(origin, n, p);
      var x := Rel(origin, walk[|walk| - 1].path);
      && ScanWalk(origin, n, walk).queues == s.queues[s.fileNum % n := s.queues[s.fileNum % n] + [x]]
      && RelFiles(origin, walk) == RelFiles(origin, p) + [x]
      && s.fileNum == |RelFiles(origin, p)|
  {
    assert walk[|walk| - 1] in walk;
  }

  /** The walk loop's last step for anything but a regular file. */
  lemma ScanSkip(origin: string, n: nat, walk: seq<WalkEntry>)
    requires n > 0 && |walk| > 0
    requires Rooted(origin, walk)
    requires !walk[|walk| - 1].kind.File?
    ensures var p := walk[..|walk| - 1];
      && ScanWalk(origin, n, walk) == ScanWalk(origin, n, p)
      && RelFiles(origin, walk) == RelFiles(origin, p)
  {
  }

  /** The queues hold exactly the relative paths of the walk's regular files: as many lines as
      files, the same paths with the same multiplicity, and the same source bytes. */
  lemma {:induction false} ScanTally(origin: string, n: nat, walk: seq<WalkEntry>, disk: Disk)
    requires n > 0
    requires Rooted(origin, walk)
    ensures TotalLines(ScanWalk(origin, n, walk).queues) == |Files(walk)|
    ensures Pool(ScanWalk(origin, n, walk).queues) == multiset(RelFiles(origin, walk))
    ensures TotalBytes(ScanWalk(origin, n, walk).queues, disk, origin)
         == SourceBytes(RelFiles(origin, walk), disk, origin)
    decreases |walk|
  {
    if |walk| == 0 {
      EmptyQueues(n, disk, origin);
    } else {
      var p := walk[..|walk| - 1];
      var e := walk[|walk| - 1];
      ScanTally(origin, n, p, disk);
      if e.kind.File? {
        ScanStep(origin, n, walk);
        var s := ScanWalk(origin, n, p);
        var x := Rel(origin, e.path);
        AppendToQueue(s.queues, s.fileNum % n, x, disk, origin);
        var rels := RelFiles(origin, walk);
        assert rels[..|rels| - 1] == RelFiles(origin, p);
      } else {
        ScanSkip(origin, n, walk);
      }
    }
  }

  /** Queue i holds the relative paths of the regular files whose walk position is congruent to
      i modulo n, in walk order. */
  lemma {:induction false} ScanColumns(origin: string, n: nat, walk: seq<WalkEntry>)
    requires n > 0
    requires Rooted(origin, walk)
    ensures forall i :: 0 <= i < n ==>
      ScanWalk(origin, n, walk).queues[i] == RoundRobin.Column(RelFiles(origin, walk), n, i)
    decreases |walk|
  {
    if |walk| > 0 {
      var p := walk[..|walk| - 1];
      var e := walk[|walk| - 1];
      assert e in walk;
      ScanColumns(origin, n, p);
      var s := ScanWalk(origin, n, p);
      var before := RelFiles(origin, p);
      if e.kind.File? {
        var x := Rel(origin, e.path);
        var rels := RelFiles(origin, walk);
        assert rels == before + [x];
        assert rels[..|rels| - 1] == before;
        var k := s.fileNum % n;
        assert ScanWalk(origin, n, walk).queues == s.queues[k := s.queues[k] + [x]];
        forall i | 0 <= i < n
          ensures ScanWalk(origin, n, walk).queues[i] == RoundRobin.Column(rels, n, i)
        {
          assert RoundRobin.Column(rels, n, i)
              == RoundRobin.Column(before, n, i) + (if |before| % n == i then [x] else []);
        }
      } else {
        assert ScanWalk(origin, n, walk) == s;
        assert RelFiles(origin, walk) == before;
      }
    }
  }

  /** The k-th regular file of the walk, in walk order, is dealt to queue k mod n, where it is
      line k / n: its path relative to the origin. */
  lemma ScanDealt(origin: string, n: nat, walk: seq<WalkEntry>, k: nat)
    requires n > 0 && Rooted(origin, walk)
    requires k < |Files(walk)|
    ensures var q := ScanWalk(origin, n, walk).queues[k % n];
      k / n < |q| && origin + q[k / n] == Files(walk)[k].path
  {
    ScanColumns(origin, n, walk);
    RoundRobin.Dealt(RelFiles(origin, walk), n, k);
  }

  /** Queue i holds one line per round of dealing that reached it, so queue lengths differ by at
      most one, the first `fileNum mod n` queues being the longer ones. */
  lemma ScanBalanced(origin: string, n: nat, walk: seq<WalkEntry>, i: nat, j: nat)
    requires n > 0 && Rooted(origin, walk)
    requires i < n && j < n
    ensures var qs := ScanWalk(origin, n, walk).queues;
      && |qs[i]| == |Files(walk)| / n + (if i < |Files(walk)| % n then 1 else 0)
      && |qs[i]| <= |qs[j]| + 1
  {
    ScanColumns(origin, n, walk);
    RoundRobin.ColumnShape(RelFiles(origin, walk), n, i);
    RoundRobin.Balanced(RelFiles(origin, walk), n, i, j);
  }

  /** A successful plan writes into queue i the header lines and the i-th queue of the walk loop. */
  lemma PlannedTexts(w: World, origin: string, dest: string, n: nat,
                     walk: seq<WalkEntry>, unwritable: set<string>)
    requires Rooted(origin, walk)
    requires CreateCopyQueues(w, origin, dest, n, walk, unwritable).outcome.Planned?
    ensures n > 0
    ensures var plans := CreateCopyQueues(w, origin, dest, n, walk, unwritable).world.plans;
      forall i :: 0 <= i < n ==>
        QueueName(w.tempDir, i) in plans &&
        plans[QueueName(w.tempDir, i)] == Text([origin, dest] + ScanWalk(origin, n, walk).queues[i])
  {
  }

  /** After a successful plan, reading queue i back gives the origin and destination header lines
      followed by the relative paths of every n-th regular file starting with the i-th. */
  lemma PlanRoundRobin(w: World, origin: string, dest: string, n: nat,
                       walk: seq<WalkEntry>, unwritable: set<string>)
    requires Rooted(origin, walk)
    requires NoNewline(origin) && NoNewline(dest)
    requires forall e :: e in walk ==> NoNewline(e.path)
    requires CreateCopyQueues(w, origin, dest, n, walk, unwritable).outcome.Planned?
    ensures var plans := CreateCopyQueues(w, origin, dest, n, walk, unwritable).world.plans;
      forall i :: 0 <= i < n ==>
        QueueName(w.tempDir, i) in plans &&
        Lines(plans[QueueName(w.tempDir, i)]) == [origin, dest] + RoundRobin.Column(RelFiles(origin, walk), n, i)
  {
    PlannedTexts(w, origin, dest, n, walk, unwritable);
    ScanColumns(origin, n, walk);
    RelsNoNewline(origin, walk);
    var rels := RelFiles(origin, walk);
    forall i | 0 <= i < n
      ensures var col := RoundRobin.Column(rels, n, i);
        Lines(Text([origin, dest] + col)) == [origin, dest] + col
    {
      ColumnReadsBack(origin, dest, rels, n, i);
    }
  }

  lemma ColumnReadsBack(origin: string, dest: string, rels: seq<string>, n: nat, i: nat)
    requires n > 0 && i < n
    requires NoNewline(origin) && NoNewline(dest)
    requires forall l :: l in rels ==> NoNewline(l)
    ensures var col := RoundRobin.Column(rels, n, i);
      Lines(Text([origin, dest] + col)) == [origin, dest] + col
  {
    var col := RoundRobin.Column(rels, n, i);
    RoundRobin.ColumnMembers(rels, n, i);
    var lines := [origin, dest] + col;
    forall k | 0 <= k < |lines| ensures NoNewline(lines[k]) {
      if k >= 2 {
        assert lines[k] == col[k - 2];
        assert col[k - 2] in col;
      }
    }
    ReadWritten(lines);
  }

  /** No relative path of the plan holds a newline when no walked path does. */
  lemma RelsNoNewline(origin: string, walk: seq<WalkEntry>)
    requires Rooted(origin, walk)
    requires forall e :: e in walk ==> NoNewline(e.path)
    ensures forall l :: l in RelFiles(origin, walk) ==> NoNewline(l)
  {
    var rels := RelFiles(origin, walk);
    forall k | 0 <= k < |rels| ensures NoNewline(rels[k]) {
      var f := Files(walk)[k];
      assert f in Files(walk);
      assert origin + rels[k] == f.path;
    }
  }

  /** Every regular file of the walk is among `Files`. */
  lemma {:induction false} FilesComplete(walk: seq<WalkEntry>)
    ensures forall e :: e in walk && e.kind.File? ==> e in Files(walk)
    decreases |walk|
  {
    if |walk| > 0 {
      var p := walk[..|walk| - 1];
      FilesComplete(p);
      assert forall e :: e in walk ==> e in p || e == walk[|walk| - 1];
    }
  }

  /** The k-th line of the plan is the k-th regular file's path relative to the origin. */
  lemma RelFilesAreRel(origin: string, walk: seq<WalkEntry>, k: nat)
    requires Rooted(origin, walk)
    requires k < |RelFiles(origin, walk)|
    ensures Files(walk)[k] in walk && Below(origin, Files(walk)[k].path)
    ensures RelFiles(origin, walk)[k] == Rel(origin, Files(walk)[k].path)
  {
    var f := Files(walk)[k];
    assert f in Files(walk);
    var l := RelFiles(origin, walk)[k];
    assert origin + l == f.path;
    assert f.path[|origin|..] == l;
  }

  /** When the disk still holds every walked regular file with the walked size, the sources of
      the plan's lines add up to the size the walk totalled. */
  lemma {:induction false} SourceBytesOfWalk(origin: string, walk: seq<WalkEntry>, disk: Disk)
    requires Rooted(origin, walk)
    requires forall e :: e in walk && e.kind.File? ==> e.path in disk && disk[e.path] == e.kind
    ensures SourceBytes(RelFiles(origin, walk), disk, origin) == Bytes(walk)
    decreases |walk|
  {
    if |walk| > 0 {
      var p := walk[..|walk| - 1];
      var e := walk[|walk| - 1];
      assert e in walk;
      assert forall x :: x in p ==> x in walk;
      SourceBytesOfWalk(origin, p, disk);
      var rp := RelFiles(origin, p);
      if e.kind.File? {
        var l := Rel(origin, e.path);
        var rs := rp + [l];
        assert RelFiles(origin, walk) == rs;
        assert rs[..|rs| - 1] == rp;
        assert origin + l == e.path by {
          assert Below(origin, e.path);
        }
        assert SizeAt(disk, origin + l) == e.kind.size;
        assert SourceBytes(rs, disk, origin) == SourceBytes(rp, disk, origin) + SizeAt(disk, origin + l);
        assert Bytes(walk) == Bytes(p) + e.kind.size;
      } else {
        assert RelFiles(origin, walk) == rp;
        assert Bytes(walk) == Bytes(p);
      }
    }
  }
}

=== FILE: queue_files.dfy ===
/** Names of the queue artifacts in the temporary directory and their removal. */
module QueueFiles {
  import opened Optional
  import Decimal

  /** The fixed prefix of every queue artifact's file name. */
  function GetTempFN(): string {
    "copy_plan_"
  }

  /** The fixed extension of every queue artifact's file name. */
  function GetTempExten(): string {
    ".txt"
  }

  /** The artifact holding queue `i`: temporary directory, prefix, decimal index, extension. */
  function QueueName(tempDir: string, i: nat): string {
    tempDir + GetTempFN() + Decimal.NatToString(i) + GetTempExten()
  }

  /** The parser reads the index back from the name of queue `i`. */
  lemma NameParses(tempDir: string, i: nat)
    ensures ParseQueueName(tempDir, QueueName(tempDir, i)) == Some(i)
  {
    NameParts(tempDir + GetTempFN(), Decimal.NatToString(i), GetTempExten());
    Decimal.ParsePrint(i);
  }

  /** The name of queue `i` is the temporary directory followed by "copy_plan_", a nonempty run of
      decimal digits without a superfluous leading zero, and ".txt". */
  lemma NameShape(tempDir: string, i: nat)
    ensures var name := QueueName(tempDir, i);
      var pre := tempDir + "copy_plan_";
      && |name| > |pre| + 4
      && name[..|pre|] == pre
      && name[|name| - 4..] == ".txt"
      && Decimal.IsCanonical(name[|pre|..|name| - 4])
  {
    NameParts(tempDir + GetTempFN(), Decimal.NatToString(i), GetTempExten());
    Decimal.PrintFacts(i);
  }

  /** The same for every index at once. */
  lemma NamesParse(tempDir: string)
    ensures forall i: nat :: ParseQueueName(tempDir, QueueName(tempDir, i)) == Some(i)
  {
    forall i: nat ensures ParseQueueName(tempDir, QueueName(tempDir, i)) == Some(i) {
      NameParses(tempDir, i);
    }
  }

  /** The queue index a path names, if it is a queue artifact of `tempDir` at all. */
  function ParseQueueName(tempDir: string, name: string): Option<nat> {
    var pre := tempDir + GetTempFN();
    var ext := GetTempExten();
    if |name| >= |pre| + |ext| && name[..|pre|] == pre && name[|name| - |ext|..] == ext then
      Decimal.Parse(name[|pre|..|name| - |ext|])
    else
      None
  }

  lemma NameParts(pre: string, mid: string, ext: string)
    ensures var s := pre + mid + ext;
      && s[..|pre|] == pre
      && s[|s| - |ext|..] == ext
      && s[|pre|..|s| - |ext|] == mid
  {
  }

  /** A path the parser accepts as queue `i` is exactly the name of queue `i`. */
  lemma ParsedIsName(tempDir: string, name: string, i: nat)
    requires ParseQueueName(tempDir, name) == Some(i)
    ensures QueueName(tempDir, i) == name
  {
    var pre := tempDir + GetTempFN();
    var ext := GetTempExten();
    var mid := name[|pre|..|name| - |ext|];
    Decimal.PrintParse(mid);
    assert name == name[..|pre|] + mid + name[|name| - |ext|..];
  }

  /** Distinct indices name distinct artifacts. */
  lemma NamesDistinct(tempDir: string, i: nat, j: nat)
    ensures QueueName(tempDir, i) == QueueName(tempDir, j) ==> i == j
  {
    NameParses(tempDir, i);
    NameParses(tempDir, j);
  }

  /** `name` is the artifact of one of the queues 0 .. n-1. */
  predicate IsQueueBelow(tempDir: string, name: string, n: nat) {
    match ParseQueueName(tempDir, name)
    case Some(i) => i < n
    case None => false
  }

  /** Deletes the artifacts of queues 0 .. n-1 that exist; missing ones are passed over. */
  function RemoveCopyQueues(plans: map<string, string>, tempDir: string, n: nat): (r: map<string, string>)
    ensures forall k :: k in r <==> k in plans && !IsQueueBelow(tempDir, k, n)
    ensures forall k :: k in r ==> r[k] == plans[k]
    decreases n
  {
    if n == 0 then plans
    else
      var before := RemoveCopyQueues(plans, tempDir, n - 1);
      var r := before - {QueueName(tempDir, n - 1)};
      NameParses(tempDir, n - 1);
      assert forall k :: IsQueueBelow(tempDir, k, n) <==>
        IsQueueBelow(tempDir, k, n - 1) || k == QueueName(tempDir, n - 1) by {
        forall k | ParseQueueName(tempDir, k) == Some(n - 1) {
          ParsedIsName(tempDir, k, n - 1);
        }
      }
      r
  }

  /** Removing the queues twice leaves what removing them once left. */
  lemma RemoveIdempotent(plans: map<string, string>, tempDir: string, n: nat)
    ensures RemoveCopyQueues(RemoveCopyQueues(plans, tempDir, n), tempDir, n)
         == RemoveCopyQueues(plans, tempDir, n)
  {
  }

  /** Writes `texts[i]` as the artifact of queue `i`, for every i below |texts|. */
  function Store(plans: map<string, string>, tempDir: string, texts: seq<string>): (r: map<string, string>)
    ensures forall i :: 0 <= i < |texts| ==> QueueName(tempDir, i) in r && r[QueueName(tempDir, i)] == texts[i]
    ensures forall k :: k in plans && !IsQueueBelow(tempDir, k, |texts|) ==> k in r && r[k] == plans[k]
    ensures forall k :: k in r ==> k in plans || IsQueueBelow(tempDir, k, |texts|)
    decreases |texts|
  {
    if |texts| == 0 then plans
    else
      var m := |texts| - 1;
      NamesParse(tempDir);
      Store(plans, tempDir, texts[..m])[QueueName(tempDir, m) := texts[m]]
  }
}

=== FILE: round_robin.dfy ===
/** Round-robin dealing: the k-th item goes to pile k mod n. */
module RoundRobin {

  /** The items of `xs` whose positions are congruent to `i` modulo `n`, in order. */
  function Column<T>(xs: seq<T>, n: nat, i: nat): seq<T>
    requires n > 0
    decreases |xs|
  {
    if |xs| == 0 then []
    else Column(xs[..|xs| - 1], n, i) + (if (|xs| - 1) % n == i then [xs[|xs| - 1]] else [])
  }

  lemma {:induction false} MulMonotone(a: nat, b: nat, n: nat)
    requires a <= b
    ensures a * n <= b * n
    decreases b - a
  {
    if a < b {
      MulMonotone(a, b - 1, n);
      assert b * n == (b - 1) * n + n;
    }
  }

  /** Quotient and remainder of `q * n + r` for `r < n`. */
  lemma DivModUnique(a: nat, n: nat, q: nat, r: nat)
    requires n > 0 && r < n && a == q * n + r
    ensures a / n == q && a % n == r
  {
    var q' := a / n;
    var r' := a % n;
    assert a == q' * n + r';
    if q' < q {
      MulMonotone(q' + 1, q, n);
      assert false;
    } else if q' > q {
      MulMonotone(q + 1, q', n);
      assert false;
    }
  }

  lemma DivModNext(m: nat, n: nat)
    requires n > 0
    ensures m % n + 1 < n ==> (m + 1) / n == m / n && (m + 1) % n == m % n + 1
    ensures m % n + 1 == n ==> (m + 1) / n == m / n + 1 && (m + 1) % n == 0
  {
    var q := m / n;
    var r := m % n;
    assert m == q * n + r;
    if r + 1 < n {
      DivModUnique(m + 1, n, q, r + 1);
    } else {
      assert m + 1 == (q + 1) * n + 0;
      DivModUnique(m + 1, n, q + 1, 0);
    }
  }

  /** Column `i` holds one item per round that reached it: the first `|xs| % n` columns are one
      item longer than the rest. */
  lemma {:induction false} ColumnLength<T>(xs: seq<T>, n: nat, i: nat)
    requires n > 0 && i < n
    ensures |Column(xs, n, i)| == |xs| / n + (if i < |xs| % n then 1 else 0)
    decreases |xs|
  {
    if |xs| > 0 {
      var m := |xs| - 1;
      ColumnLength(xs[..m], n, i);
      DivModNext(m, n);
    }
  }

  /** The q-th item of column `i` is item `q * n + i` of `xs`. */
  lemma {:induction false} ColumnItem<T>(xs: seq<T>, n: nat, i: nat, q: nat)
    requires n > 0 && i < n
    requires q < |Column(xs, n, i)|
    ensures q * n + i < |xs| && Column(xs, n, i)[q] == xs[q * n + i]
    decreases |xs|
  {
    var m := |xs| - 1;
    var p := xs[..m];
    var c := Column(p, n, i);
    if q < |c| {
      ColumnItem(p, n, i, q);
      assert Column(xs, n, i)[q] == c[q];
    } else {
      ColumnLength(p, n, i);
      LastRound(m, n, i, q);
    }
  }

  lemma LastRound(m: nat, n: nat, i: nat, q: nat)
    requires n > 0 && m % n == i && q == m / n
    ensures q * n + i == m
  {
  }

  /** Column `i` holds one item per round that reached it, and its q-th item is item
      `q * n + i` of `xs`: the first `|xs| % n` columns are one item longer than the rest. */
  lemma ColumnShape<T>(xs: seq<T>, n: nat, i: nat)
    requires n > 0 && i < n
    ensures |Column(xs, n, i)| == |xs| / n + (if i < |xs| % n then 1 else 0)
    ensures forall q :: 0 <= q < |Column(xs, n, i)| ==>
      q * n + i < |xs| && Column(xs, n, i)[q] == xs[q * n + i]
  {
    ColumnLength(xs, n, i);
    forall q | 0 <= q < |Column(xs, n, i)|
      ensures q * n + i < |xs| && Column(xs, n, i)[q] == xs[q * n + i]
    {
      ColumnItem(xs, n, i, q);
    }
  }

  /** A position below m falls in a round that reached its column. */
  lemma RoundReached(k: nat, m: nat, n: nat)
    requires n > 0 && k < m
    ensures k / n < m / n + (if k % n < m % n then 1 else 0)
  {
    var q := k / n;
    var r := k % n;
    var Q := m / n;
    var R := m % n;
    assert k == q * n + r;
    assert m == Q * n + R;
    if q > Q {
      MulMonotone(Q + 1, q, n);
    }
    assert q <= Q;
    if r >= R {
      assert q != Q;
    }
  }

  /** The k-th item is dealt to column k mod n, at position k / n there. */
  lemma Dealt<T>(xs: seq<T>, n: nat, k: nat)
    requires n > 0 && k < |xs|
    ensures k / n < |Column(xs, n, k % n)|
    ensures Column(xs, n, k % n)[k / n] == xs[k]
  {
    ColumnShape(xs, n, k % n);
    RoundReached(k, |xs|, n);
    assert k == (k / n) * n + k % n;
  }

  /** The k-th item is among the items of column k mod n. */
  lemma DealtMember<T>(xs: seq<T>, n: nat, k: nat)
    requires n > 0 && k < |xs|
    ensures k % n < n
    ensures xs[k] in Column(xs, n, k % n)
  {
    Dealt(xs, n, k);
  }

  /** Every item of a column is an item of the dealt sequence. */
  lemma {:induction false} ColumnMembers<T>(xs: seq<T>, n: nat, i: nat)
    requires n > 0
    ensures forall x :: x in Column(xs, n, i) ==> x in xs
    decreases |xs|
  {
    if |xs| > 0 {
      ColumnMembers(xs[..|xs| - 1], n, i);
      assert forall x :: x in xs[..|xs| - 1] ==> x in xs;
    }
  }

  /** Column lengths differ by at most one. */
  lemma Balanced<T>(xs: seq<T>, n: nat, i: nat, j: nat)
    requires n > 0 && i < n && j < n
    ensures |Column(xs, n, i)| <= |Column(xs, n, j)| + 1
  {
    ColumnShape(xs, n, i);
    ColumnShape(xs, n, j);
  }
}

=== FILE: space.dfy ===
/** The free-space check made before planning. */
module Space {
  import opened Optional

  /** Whether the volume holding `dest` has at least `needed` bytes available to the caller.
      `available` maps each path whose volume can be queried to its available bytes; for any
      other path the query raises an error, modelled as None. */
  function IsEnoughSpace(available: map<string, nat>, dest: string, needed: nat): (r: Option<bool>)
    ensures r.None? <==> dest !in available
    ensures r == Some(true) <==> dest in available && needed <= available[dest]
  {
    if dest !in available then None else Some(available[dest] >= needed)
  }

  /** The answer is monotone in the request: what fits still fits when less is asked for, and
      what does not fit still does not when more is asked for. */
  lemma SpaceMonotone(available: map<string, nat>, dest: string, less: nat, more: nat)
    requires less <= more
    ensures IsEnoughSpace(available, dest, more) == Some(true) ==> IsEnoughSpace(available, dest, less) == Some(true)
    ensures IsEnoughSpace(available, dest, less) == Some(false) ==> IsEnoughSpace(available, dest, more) == Some(false)
  {
  }
}

=== FILE: structure.dfy ===
/** Directory-structure replication: before any file is copied, the directory tree of the origin
    named in queue 0 is recreated under the destination, directories only. */
module Structure {
  import opened Optional
  import opened FileSystem
  import opened TextLines
  import opened QueueFiles

  /** Every entry of `before` is still there, unchanged. */
  predicate Preserves(before: Disk, after: Disk) {
    forall k :: k in before ==> k in after && after[k] == before[k]
  }

  /** Every entry `after` has that `before` lacks is a directory. */
  predicate OnlyDirsAdded(before: Disk, after: Disk) {
    forall k :: k in after && k !in before ==> after[k] == Dir
  }

  /** The counterpart under `dest` of a walked entry of `origin`. */
  function Target(origin: string, dest: string, e: WalkEntry): string
    requires Below(origin, e.path)
  {
    dest + Rel(origin, e.path)
  }

  /** Copying the walked entry `e` to `t` raises an error: `e` is neither file nor directory,
      something that is neither is in the way, or a directory meets a regular file. */
  predicate Blocked(disk: Disk, e: WalkEntry, t: string) {
    || e.kind.Other?
    || (t in disk && disk[t].Other?)
    || (e.kind.Dir? && t in disk && disk[t].File?)
  }

  /** The recursive part of a directories-only copy: each walked directory gets a directory at
      its counterpart unless one is there already; walked files are passed over. */
  function CopyTree(disk: Disk, origin: string, dest: string, walk: seq<WalkEntry>): (r: Option<Disk>)
    requires Rooted(origin, walk)
    ensures r.None? <==> exists e :: e in walk && Blocked(disk, e, Target(origin, dest, e))
    ensures r.Some? ==> Preserves(disk, r.value) && OnlyDirsAdded(disk, r.value)
    ensures r.Some? ==> forall e :: e in walk && e.kind.Dir? ==> IsDir(r.value, Target(origin, dest, e))
    ensures r.Some? ==> forall k :: k in r.value && k !in disk ==>
      exists e :: e in walk && e.kind.Dir? && k == Target(origin, dest, e)
    decreases |walk|
  {
    if |walk| == 0 then Some(disk)
    else
      var p := walk[..|walk| - 1];
      var e := walk[|walk| - 1];
      assert e in walk;
      assert forall x :: x in p ==> x in walk;
      match CopyTree(disk, origin, dest, p)
      case None => None
      case Some(d) =>
        var t := Target(origin, dest, e);
        if Blocked(d, e, t) then None
        else if e.kind.Dir? && t !in d then Some(d[t := Dir])
        else Some(d)
  }

  /** The destination is itself a directory the walk of the origin lists. A recursive copy then
      descends into each directory it has just created under the destination, and goes on until
      creating one fails. */
  predicate IntoItself(dest: string, walk: seq<WalkEntry>) {
    exists e :: e in walk && e.kind.Dir? && e.path == dest
  }

  /** When a directories-only, recursive copy of `origin` onto `dest` raises an error: a missing
      origin, a copy onto itself, something that is neither file nor directory at either end, and,
      for a directory origin, an empty destination (the directory it names cannot be created), a
      regular file at the destination, a destination inside the walked tree, or a walked entry
      whose counterpart is blocked. */
  predicate CopyFails(disk: Disk, origin: string, dest: string, walk: seq<WalkEntry>)
    requires Rooted(origin, walk)
  {
    || origin !in disk || origin == dest
    || disk[origin].Other? || (dest in disk && disk[dest].Other?)
    || (disk[origin].Dir? &&
          (dest == ""
           || (dest in disk && disk[dest].File?)
           || IntoItself(dest, walk)
           || exists e :: e in walk && Blocked(disk, e, Target(origin, dest, e))))
  }

  /** Creating the destination directory does not block any walked entry: every counterpart lies
      strictly below the destination. */
  lemma BlockedBelowDest(disk: Disk, origin: string, dest: string, walk: seq<WalkEntry>)
    requires Rooted(origin, walk)
    ensures forall e :: e in walk ==>
      (Blocked(disk[dest := Dir], e, Target(origin, dest, e)) <==> Blocked(disk, e, Target(origin, dest, e)))
  {
    forall e | e in walk
      ensures Blocked(disk[dest := Dir], e, Target(origin, dest, e)) <==> Blocked(disk, e, Target(origin, dest, e))
    {
      assert |Target(origin, dest, e)| > |dest|;
    }
  }

  /** A directories-only, recursive copy of `origin` onto `dest`; None when it raises an error. */
  function CopyDirs(disk: Disk, origin: string, dest: string, walk: seq<WalkEntry>): (r: Option<Disk>)
    requires Rooted(origin, walk)
    ensures r.None? <==> CopyFails(disk, origin, dest, walk)
    ensures origin !in disk || origin == dest ==> r.None?
    ensures r.Some? ==> Preserves(disk, r.value) && OnlyDirsAdded(disk, r.value)
    // a regular file is passed over
    ensures origin in disk && disk[origin].File? && origin != dest && !(dest in disk && disk[dest].Other?) ==>
      r == Some(disk)
    // a directory is replicated, directory by directory
    ensures r.Some? && IsDir(disk, origin) ==>
      && IsDir(r.value, dest)
      && (forall e :: e in walk && e.kind.Dir? ==> IsDir(r.value, Target(origin, dest, e)))
      && (forall k :: k in r.value && k !in disk ==>
            k == dest || exists e :: e in walk && e.kind.Dir? && k == Target(origin, dest, e))
  {
    if origin !in disk || origin == dest then None
    else if disk[origin].Other? || (dest in disk && disk[dest].Other?) then None
    else if disk[origin].Dir? && dest in disk && disk[dest].File? then None
    else if disk[origin].Dir? && (dest == "" || IntoItself(dest, walk)) then None
    else if disk[origin].File? then Some(disk)
    else if dest in disk then CopyTree(disk, origin, dest, walk)
    else
      BlockedBelowDest(disk, origin, dest, walk);
      CopyTree(disk[dest := Dir], origin, dest, walk)
  }

  datatype Replication = Skipped | Thrown | Replicated(disk: Disk)

  /** Replicates the directory tree named by the header of queue 0. `walkOf(o)` is what a
      recursive iteration of `o` yields. Without queue 0 nothing happens; an error of the copy
      escapes as `Thrown`. */
  function CopyDirStructure(w: World, walkOf: string -> seq<WalkEntry>): (r: Replication)
    requires forall o :: Rooted(o, walkOf(o))
    ensures QueueName(w.tempDir, 0) !in w.plans ==> r.Skipped?
    // with queue 0 present the copy runs, and raises an error exactly in the failing cases
    ensures QueueName(w.tempDir, 0) in w.plans ==>
      var ls := Lines(w.plans[QueueName(w.tempDir, 0)]);
      && !r.Skipped?
      && (r.Thrown? <==> CopyFails(w.disk, Line(ls, 0), Line(ls, 1), walkOf(Line(ls, 0))))
    ensures r.Replicated? ==> Preserves(w.disk, r.disk) && OnlyDirsAdded(w.disk, r.disk)
    ensures r.Replicated? ==>
      var ls := Lines(w.plans[QueueName(w.tempDir, 0)]);
      var origin := Line(ls, 0);
      var dest := Line(ls, 1);
      IsDir(w.disk, origin) ==>
        && IsDir(r.disk, dest)
        && forall e :: e in walkOf(origin) && e.kind.Dir? && Below(origin, e.path) ==>
             IsDir(r.disk, Target(origin, dest, e))
  {
    var first := QueueName(w.tempDir, 0);
    if first !in w.plans then Skipped
    else
      var ls := Lines(w.plans[first]);
      var origin := Line(ls, 0);
      var dest := Line(ls, 1);
      match CopyDirs(w.disk, origin, dest, walkOf(origin))
      case None => Thrown
      case Some(d) => Replicated(d)
  }
}

=== FILE: text_lines.dfy ===
/** The queue artifact format: lines written one by one, each followed by `std::endl`,
    and read back with successive `std::getline` calls. */
module TextLines {

  predicate NoNewline(s: string) {
    '\n' !in s
  }

  /** The text a stream holds after each line was written followed by a newline. */
  function Text(lines: seq<string>): string
    decreases |lines|
  {
    if |lines| == 0 then "" else lines[0] + "\n" + Text(lines[1..])
  }

  /** Index of the first newline of `t`, or `|t|` when there is none. */
  function FirstNewline(t: string): (i: nat)
    ensures i <= |t|
    ensures i < |t| ==> t[i] == '\n'
    ensures forall j :: 0 <= j < i ==> t[j] != '\n'
    decreases |t|
  {
    if |t| == 0 then 0 else if t[0] == '\n' then 0 else 1 + FirstNewline(t[1..])
  }

  /** The lines successive `getline` calls return before the stream reaches its end: a last
      line without a terminating newline still counts, an empty remainder does not. */
  function Lines(t: string): (ls: seq<string>)
    ensures forall k :: 0 <= k < |ls| ==> NoNewline(ls[k])
    decreases |t|
  {
    if |t| == 0 then []
    else
      var i := FirstNewline(t);
      if i == |t| then [t] else [t[..i]] + Lines(t[i + 1..])
  }

  /** The line `getline` leaves in its target at position `k`: missing lines read as empty. */
  function Line(ls: seq<string>, k: nat): string {
    if k < |ls| then ls[k] else ""
  }

  lemma FirstNewlineAfter(a: string, b: string)
    requires NoNewline(a)
    ensures FirstNewline(a + "\n" + b) == |a|
  {
    var t := a + "\n" + b;
    assert forall j :: 0 <= j < |a| ==> t[j] == a[j];
    assert t[|a|] == '\n';
  }

  /** Reading back what was written gives the same lines, when none of them holds a newline. */
  lemma {:induction false} ReadWritten(lines: seq<string>)
    requires forall k :: 0 <= k < |lines| ==> NoNewline(lines[k])
    ensures Lines(Text(lines)) == lines
    decreases |lines|
  {
    if |lines| > 0 {
      var rest := Text(lines[1..]);
      var t := Text(lines);
      assert t == lines[0] + "\n" + rest;
      FirstNewlineAfter(lines[0], rest);
      assert t[..|lines[0]|] == lines[0];
      assert t[|lines[0]| + 1..] == rest;
      assert Lines(t) == [lines[0]] + Lines(rest);
      ReadWritten(lines[1..]);
      assert lines == [lines[0]] + lines[1..];
    }
  }

  /** A line that itself holds a newline is read back as two lines. */
  lemma NewlineSplitsLine(a: string, b: string)
    requires NoNewline(a) && NoNewline(b)
    ensures Lines(Text([a + "\n" + b])) == [a, b]
  {
    assert [a, b][1..][1..] == [];
    assert Text([a + "\n" + b]) == Text([a, b]);
    ReadWritten([a, b]);
  }
}

=== FILE: worker.dfy ===
/** A copy worker: reads one queue artifact, copies each listed file from the origin tree into
    the destination tree, adds to the shared counters and raises the sticky error flag when a
    copy fails. It stops between files once it observes cancellation. */
module Worker {
  import opened Optional
  import opened FileSystem
  import opened TextLines
  import Planner

  /** The destination paths that copying `lines` can write. */
  function Targets(dest: string, lines: seq<string>): set<string> {
    set l | l in lines :: dest + l
  }

  /** One turn of the copy loop for the queue line `line`. An empty line, or a source that is
      missing or not a regular file, is passed over. A regular source is copied, overwriting the
      target; whether the copy reports an error is given by `failing`, the set of source paths
      whose copy fails. A target that is a directory stays one: the copy goes into it, under a
      name this model does not track. The file is counted and its size added either way. */
  function CopyLine(w: World, origin: string, dest: string, line: string, failing: set<string>): (r: World)
    ensures r.plans == w.plans && r.tempDir == w.tempDir
    ensures line == "" || !IsRegular(w.disk, origin + line) ==> r == w
    ensures line != "" && IsRegular(w.disk, origin + line) ==>
      && r.copiedNum == w.copiedNum + 1
      && r.copiedSize == w.copiedSize + SizeAt(w.disk, origin + line)
      && r.copyError == (w.copyError || origin + line in failing)
      && (origin + line !in failing && !IsDir(w.disk, dest + line) ==>
            dest + line in r.disk && r.disk[dest + line] == File(SizeAt(w.disk, origin + line)))
      && (origin + line in failing || IsDir(w.disk, dest + line) ==> r.disk == w.disk)
    ensures forall k :: k != dest + line ==>
      (k in r.disk <==> k in w.disk) && (k in w.disk ==> r.disk[k] == w.disk[k])
    // a directory is neither created nor replaced
    ensures forall k :: IsDir(r.disk, k) <==> IsDir(w.disk, k)
  {
    var src := origin + line;
    if line == "" || !IsRegular(w.disk, src) then w
    else
      var size := w.disk[src].size;
      w.(disk := if src in failing || IsDir(w.disk, dest + line) then w.disk else w.disk[dest + line := File(size)],
         copyError := w.copyError || src in failing,
         copiedSize := w.copiedSize + size,
         copiedNum := w.copiedNum + 1)
  }

  /** The copy loop over `lines`, first to last. */
  function CopyLines(w: World, origin: string, dest: string, lines: seq<string>, failing: set<string>): (r: World)
    ensures r.plans == w.plans && r.tempDir == w.tempDir
    // the flag is never cleared, and raised only by a failing source among the lines
    ensures w.copyError ==> r.copyError
    ensures r.copyError ==> w.copyError || exists l :: l in lines && origin + l in failing
    // each line counts at most once
    ensures w.copiedNum <= r.copiedNum <= w.copiedNum + |lines|
    ensures w.copiedSize <= r.copiedSize
    ensures forall k :: IsDir(r.disk, k) <==> IsDir(w.disk, k)
    decreases |lines|
  {
    if |lines| == 0 then w
    else
      var p := lines[..|lines| - 1];
      assert forall l :: l in p ==> l in lines;
      CopyLine(CopyLines(w, origin, dest, p, failing), origin, dest, lines[|lines| - 1], failing)
  }

  /** Only the targets of the lines can change on disk. */
  lemma {:induction false} CopyLinesFrame(w: World, origin: string, dest: string, lines: seq<string>, failing: set<string>)
    ensures var r := CopyLines(w, origin, dest, lines, failing);
      forall k :: k !in Targets(dest, lines) ==>
        (k in r.disk <==> k in w.disk) && (k in w.disk ==> r.disk[k] == w.disk[k])
    decreases |lines|
  {
    if |lines| > 0 {
      var p := lines[..|lines| - 1];
      CopyLinesFrame(w, origin, dest, p, failing);
      assert forall l :: l in p ==> l in lines;
    }
  }

  /** The lines after the two header lines of a queue artifact. */
  function Entries(text: string): seq<string> {
    var ls := Lines(text);
    if |ls| >= 2 then ls[2..] else []
  }

  /** The entry lines a worker reads: all of them when it never sees the cancel flag set, and
      only the first `k` when it sees the flag set before reading entry k + 1. */
  function Observed(entries: seq<string>, cancel: Option<nat>): (read: seq<string>)
    ensures read <= entries
    ensures cancel.Some? ==> |read| == if cancel.value < |entries| then cancel.value else |entries|
    ensures cancel.None? ==> read == entries
  {
    match cancel
    case None => entries
    case Some(k) => if k < |entries| then entries[..k] else entries
  }

  /** The worker for the queue artifact at path `queue`. It does nothing when the path is empty
      or names no artifact, or when either header line is empty. */
  function Worker(w: World, queue: string, cancel: Option<nat>, failing: set<string>): (r: World)
    ensures r.plans == w.plans && r.tempDir == w.tempDir
    ensures queue == "" || queue !in w.plans ==> r == w
    ensures queue in w.plans ==>
      var ls := Lines(w.plans[queue]);
      (Line(ls, 0) == "" || Line(ls, 1) == "" ==> r == w)
    ensures w.copyError ==> r.copyError
    ensures w.copiedNum <= r.copiedNum && w.copiedSize <= r.copiedSize
    ensures forall k :: IsDir(r.disk, k) <==> IsDir(w.disk, k)
    ensures queue in w.plans ==> r.copiedNum <= w.copiedNum + |Entries(w.plans[queue])|
    ensures cancel.Some? ==> r.copiedNum <= w.copiedNum + cancel.value
  {
    if queue == "" || queue !in w.plans then w
    else
      var ls := Lines(w.plans[queue]);
      var origin := Line(ls, 0);
      var dest := Line(ls, 1);
      if origin == "" || dest == "" then w
      else CopyLines(w, origin, dest, Observed(Entries(w.plans[queue]), cancel), failing)
  }

  /** The world with the shared counters at zero and the error flag down. */
  function Reset(w: World): World {
    w.(copyError := false, copiedSize := 0, copiedNum := 0)
  }

  lemma {:induction false} CopyLinesAdditive(w: World, origin: string, dest: string, lines: seq<string>, failing: set<string>)
    ensures var z := CopyLines(Reset(w), origin, dest, lines, failing);
      var r := CopyLines(w, origin, dest, lines, failing);
      && r.copiedNum == w.copiedNum + z.copiedNum
      && r.copiedSize == w.copiedSize + z.copiedSize
      && r.copyError == (w.copyError || z.copyError)
      && r.disk == z.disk
    decreases |lines|
  {
    if |lines| > 0 {
      CopyLinesAdditive(w, origin, dest, lines[..|lines| - 1], failing);
    }
  }

  /** What a worker does to the shared counters is an addition, and to the error flag an "or",
      independent of their values when it starts. That the order of the copy steps does not
      matter either is CopyLib.AnyOrderTotals and CopyLib.AnyOrderFlag, which need no copy
      target to be a source. */
  lemma WorkerAdditive(w: World, queue: string, cancel: Option<nat>, failing: set<string>)
    ensures var z := Worker(Reset(w), queue, cancel, failing);
      var r := Worker(w, queue, cancel, failing);
      && r.copiedNum == w.copiedNum + z.copiedNum
      && r.copiedSize == w.copiedSize + z.copiedSize
      && r.copyError == (w.copyError || z.copyError)
      && r.disk == z.disk
  {
    if queue != "" && queue in w.plans {
      var ls := Lines(w.plans[queue]);
      CopyLinesAdditive(w, Line(ls, 0), Line(ls, 1), Observed(Entries(w.plans[queue]), cancel), failing);
    }
  }

  /** The first k lines of `ls`, with missing lines read as empty. */
  function Padded(ls: seq<string>, k: nat): (p: seq<string>)
    ensures |p| == k
    ensures forall j :: 0 <= j < k ==> p[j] == Line(ls, j)
  {
    seq(k, j requires 0 <= j < k => Line(ls, j))
  }

  lemma {:induction false} ObservedIsPadded(w: World, origin: string, dest: string, entries: seq<string>, k: nat, failing: set<string>)
    ensures CopyLines(w, origin, dest, Observed(entries, Some(k)), failing)
         == CopyLines(w, origin, dest, Padded(entries, k), failing)
    decreases k
  {
    if k > 0 {
      ObservedIsPadded(w, origin, dest, entries, k - 1, failing);
      assert Padded(entries, k)[..k - 1] == Padded(entries, k - 1);
      if k - 1 < |entries| {
        assert Observed(entries, Some(k))[..k - 1] == Observed(entries, Some(k - 1));
      } else {
        assert Observed(entries, Some(k)) == Observed(entries, Some(k - 1));
      }
    }
  }

  /** Once it sees the cancel flag before entry k + 1, a worker has looked at nothing past the
      header and its first k entries: two artifacts that agree there give the same run. */
  lemma CancelStopsReading(w: World, queue: string, other: string, k: nat, failing: set<string>)
    requires queue in w.plans
    requires forall j :: 0 <= j < k + 2 ==> Line(Lines(w.plans[queue]), j) == Line(Lines(other), j)
    ensures var r := Worker(w, queue, Some(k), failing);
      var r' := Worker(w.(plans := w.plans[queue := other]), queue, Some(k), failing);
      && r.disk == r'.disk
      && r.copyError == r'.copyError
      && r.copiedSize == r'.copiedSize
      && r.copiedNum == r'.copiedNum
  {
    var w' := w.(plans := w.plans[queue := other]);
    var ls := Lines(w.plans[queue]);
    var ls' := Lines(other);
    assert Line(ls, 0) == Line(ls', 0) && Line(ls, 1) == Line(ls', 1);
    var origin := Line(ls, 0);
    var dest := Line(ls, 1);
    if queue != "" && origin != "" && dest != "" {
      var e := Entries(w.plans[queue]);
      var e' := Entries(other);
      assert Padded(e, k) == Padded(e', k) by {
        forall j | 0 <= j < k ensures Line(e, j) == Line(e', j) {
          assert Line(e, j) == Line(ls, j + 2);
          assert Line(e', j) == Line(ls', j + 2);
        }
      }
      ObservedIsPadded(w, origin, dest, e, k, failing);
      ObservedIsPadded(w', origin, dest, e', k, failing);
      CopyLinesAdditive(w, origin, dest, Padded(e, k), failing);
      CopyLinesAdditive(w', origin, dest, Padded(e, k), failing);
      assert Reset(w) == Reset(w').(plans := w.plans);
      PlansIrrelevant(Reset(w'), w.plans, origin, dest, Padded(e, k), failing);
    }
  }

  /** The copy loop does not look at the queue artifacts. */
  lemma {:induction false} PlansIrrelevant(w: World, plans: map<string, string>, origin: string, dest: string,
                                           lines: seq<string>, failing: set<string>)
    ensures CopyLines(w.(plans := plans), origin, dest, lines, failing)
         == CopyLines(w, origin, dest, lines, failing).(plans := plans)
    decreases |lines|
  {
    if |lines| > 0 {
      PlansIrrelevant(w, plans, origin, dest, lines[..|lines| - 1], failing);
    }
  }

  /** Each of `rels` is nonempty and names a regular source in `disk0`, and no copy target is a
      source. */
  predicate Copyable(disk0: Disk, origin: string, dest: string, rels: seq<string>) {
    && (forall l :: l in rels ==> l != "" && IsRegular(disk0, origin + l))
    && (forall a, b :: a in rels && b in rels ==> dest + a != origin + b)
  }

  /** Sources the copy loop must leave as they were. */
  predicate Intact(disk0: Disk, disk: Disk, origin: string, rels: seq<string>) {
    forall l :: l in rels && origin + l in disk0 ==> origin + l in disk && disk[origin + l] == disk0[origin + l]
  }

  /** One turn of the copy loop over a line of `rels` whose sources are still intact. */
  lemma CopyLineStep(w: World, origin: string, dest: string, x: string,
                     failing: set<string>, disk0: Disk, rels: seq<string>)
    requires x in rels
    requires Copyable(disk0, origin, dest, rels)
    requires Intact(disk0, w.disk, origin, rels)
    ensures var r := CopyLine(w, origin, dest, x, failing);
      && r.copiedNum == w.copiedNum + 1
      && r.copiedSize == w.copiedSize + SizeAt(disk0, origin + x)
      && r.copyError == (w.copyError || origin + x in failing)
      && Intact(disk0, r.disk, origin, rels)
      && (forall l :: Landed(disk0, w.disk, origin, dest, l) ==> Landed(disk0, r.disk, origin, dest, l))
      && (origin + x !in failing && !IsDir(w.disk, dest + x) ==> Landed(disk0, r.disk, origin, dest, x))
  {
    var r := CopyLine(w, origin, dest, x, failing);
    assert IsRegular(w.disk, origin + x);
    forall l | l in rels && origin + l in disk0
      ensures origin + l in r.disk && r.disk[origin + l] == disk0[origin + l]
    {
      assert dest + x != origin + l;
    }
    forall l | Landed(disk0, w.disk, origin, dest, l)
      ensures Landed(disk0, r.disk, origin, dest, l)
    {
      if dest + l == dest + x {
        assert l == (dest + l)[|dest|..] == (dest + x)[|dest|..] == x;
      }
    }
  }

  /** When every line is a relative path of `rels`, each of which names a regular source that no
      copy overwrites, the loop counts every line once and adds exactly the sources' sizes. */
  lemma {:induction false} CopyLinesTotals(w: World, origin: string, dest: string, lines: seq<string>,
                                           failing: set<string>, disk0: Disk, rels: seq<string>)
    requires forall l :: l in lines ==> l in rels
    requires Copyable(disk0, origin, dest, rels)
    requires Intact(disk0, w.disk, origin, rels)
    ensures var r := CopyLines(w, origin, dest, lines, failing);
      && r.copiedNum == w.copiedNum + |lines|
      && r.copiedSize == w.copiedSize + Planner.SourceBytes(lines, disk0, origin)
      && Intact(disk0, r.disk, origin, rels)
    decreases |lines|
  {
    if |lines| > 0 {
      var p := lines[..|lines| - 1];
      var x := lines[|lines| - 1];
      assert x in lines;
      assert forall l :: l in p ==> l in lines;
      CopyLinesTotals(w, origin, dest, p, failing, disk0, rels);
      CopyLineStep(CopyLines(w, origin, dest, p, failing), origin, dest, x, failing, disk0, rels);
    }
  }

  /** Under the same hypotheses the flag ends up raised exactly when it was raised already or
      some line's source fails to copy. */
  lemma {:induction false} CopyLinesFlag(w: World, origin: string, dest: string, lines: seq<string>,
                                         failing: set<string>, disk0: Disk, rels: seq<string>)
    requires forall l :: l in lines ==> l in rels
    requires Copyable(disk0, origin, dest, rels)
    requires Intact(disk0, w.disk, origin, rels)
    ensures CopyLines(w, origin, dest, lines, failing).copyError ==>
      w.copyError || exists l :: l in lines && origin + l in failing
    ensures (w.copyError || exists l :: l in lines && origin + l in failing) ==>
      CopyLines(w, origin, dest, lines, failing).copyError
    decreases |lines|
  {
    if |lines| > 0 {
      var p := lines[..|lines| - 1];
      var x := lines[|lines| - 1];
      assert x in lines;
      assert forall l :: l in p ==> l in lines;
      var mid := CopyLines(w, origin, dest, p, failing);
      assert mid.copyError <==> w.copyError || exists l :: l in p && origin + l in failing by {
        CopyLinesFlag(w, origin, dest, p, failing, disk0, rels);
      }
      assert CopyLines(w, origin, dest, lines, failing).copyError == (mid.copyError || origin + x in failing) by {
        assert x in rels;
        CopyLinesTotals(w, origin, dest, p, failing, disk0, rels);
        CopyLineStep(mid, origin, dest, x, failing, disk0, rels);
      }
      if l :| l in lines && origin + l in failing {
        if l != x {
          assert l in p;
        }
      }
    }
  }

  /** Under the same hypotheses a copy that landed stays landed, and every line whose source
      copies without error lands, unless its target is a directory, which stays one. */
  lemma {:induction false} CopyLinesLand(w: World, origin: string, dest: string, lines: seq<string>,
                                         failing: set<string>, disk0: Disk, rels: seq<string>)
    requires forall l :: l in lines ==> l in rels
    requires Copyable(disk0, origin, dest, rels)
    requires Intact(disk0, w.disk, origin, rels)
    ensures var r := CopyLines(w, origin, dest, lines, failing);
      && (forall l :: Landed(disk0, w.disk, origin, dest, l) ==> Landed(disk0, r.disk, origin, dest, l))
      && (forall l :: l in lines && origin + l !in failing && !IsDir(w.disk, dest + l) ==>
            Landed(disk0, r.disk, origin, dest, l))
    decreases |lines|
  {
    if |lines| > 0 {
      var p := lines[..|lines| - 1];
      var x := lines[|lines| - 1];
      var mid := CopyLines(w, origin, dest, p, failing);
      var r := CopyLines(w, origin, dest, lines, failing);
      assert r == CopyLine(mid, origin, dest, x, failing);
      assert forall l :: l in p ==> l in rels by {
        assert forall l :: l in p ==> l in lines;
      }
      CopyLinesLand(w, origin, dest, p, failing, disk0, rels);
      CopyLinesTotals(w, origin, dest, p, failing, disk0, rels);
      assert x in rels by {
        assert x in lines;
      }
      CopyLineStep(mid, origin, dest, x, failing, disk0, rels);
      forall l | l in lines && origin + l !in failing && !IsDir(w.disk, dest + l)
        ensures Landed(disk0, r.disk, origin, dest, l)
      {
        if l != x {
          assert l in p;
        }
      }
    }
  }

  /** The copy of `l` sits at its target with the size its source had in `disk0`. */
  predicate Landed(disk0: Disk, disk: Disk, origin: string, dest: string, l: string) {
    dest + l in disk && disk[dest + l] == File(SizeAt(disk0, origin + l))
  }
}
